=== FILE: README.md ===
# Drawing-and-guessing rooms: a Dafny model

This project models the core of a multiplayer drawing-and-guessing server. Players connect to a
room. One player, the drawer, gets a secret clue and streams a drawing. The others send
guesses, which are scored against the clue. The turn moves on after a win or when the turn
timer fires.

The repository holds three generations of the room logic, and each is modelled on its own:

- `GameRoom` (app/room.py) is the newest room:
  - the game starts when a second player joins;
  - the turn rotates round-robin in join order;
  - a guess wins when it equals the clue up to case;
  - only the drawer is sent the clue.
- `LegacyRoom` (app/connection_manager.py) is the earlier room:
  - a lone player already gets a game;
  - the drawer is drawn at random;
  - matching is case-sensitive.
- `Registry` (app/connection_manager.py) is the room registry. It keeps room ids unique and player ids unique within a room.
- `SingleRoom` (ConnectionManager.py) is the first single-room manager.
- `Clues` (app/clue.py) is the (category, word) picker.

Every transition is a pure function from the old state to a new one. An operation that
raises in the source returns `Failure(error)` instead. The old state then stands, because
every error is raised before anything changes. There are three exceptions:
- `LegacyRoom.StartGameAsWritten` empties the drawing and sets the game flag before it raises on an empty roster (see Findings).
- `Registry.StartGameAsWritten` keeps that half-started room in the registry next to the error.
- `SingleRoom.StartGame` sets the game flag before it raises on an empty roster.

For the first two, for the connect `Registry.ConnectAsWritten` and for the drawing relay
`Registry.HandleWsMessageAsWritten`, the model also has a corrected definition, which the rest of the
model uses: `LegacyRoom.StartGame`, `Registry.StartGame`, `Registry.Connect` and `Registry.HandleWsMessage`.

Some inputs come from outside the room and are passed in as parameters:
- The random source is a seed. `Choice.Pick(xs, seed)` is `xs[seed % |xs|]`, and every element is the pick of some seed (`Choice.PickSurjective`).
- The clock reading `now + timeout` is passed as `GameRoom.Env.deadline`.
- `fuzz.ratio` is a function parameter whose results lie in 0..100. fuzzywuzzy's score of 0 against a `None` clue is kept. Both room variants share this score and the threshold of 60 through the `Scoring` module.
- The turn timer firing is a call of `GameRoom.RestartOrEndGame`.

The main invariant is `GameRoom.Consistent`. It says:
- `is_game_on ⇔ clue ≠ None ⇔ whos_turn ≠ None`;
- the drawer is in the roster;
- the clue is one of `CLUES`;
- a running turn has a deadline.

`GameRoomProperties.EveryEventPreservesConsistent` proves that every event keeps it: join, leave, guess, timer, and administrative start or end. `GameRoom.NewRoom` establishes it.
`GameRoomProperties.Playable` adds that a running game has at least two players. It holds as long as the administrative start is not used.

The code behaves as follows in places a reader might not expect:
- **Departing drawer.** When the drawer leaves, the next drawer is the first remaining player, not the player after the one who left. The departed id is no longer in the roster, so `next_person_move` falls back to index 0 (`GameRoomProperties.DrawerLeavingRestartsAtFirst`).
- **Guess normalisation.** A guess is compared after lower-casing only. Commas, periods and surrounding whitespace are not stripped.
- **Administrative start.** This start ignores the two-player threshold (`GameRoomProperties.AdminStartWithOnePlayer`).
- **Deadline.** The deadline (`timestamp`) is kept after a game ends. It is only shown to guessers while a game is on.
- **Clue picker.** The picker has no anti-repeat history.
- **Activation threshold.** The threshold is 2 in app/room.py and ConnectionManager.py, and 1 in app/connection_manager.py.
- **Stale timer fires.** No generation counter detects them. The source only cancels the previous timer.

## Model

| member | source | states |
|---|---|---|
| `Choice.Pick` | app/room.py:89 | a random choice from a non-empty list returns an element of the list |
| `Choice.PickReachesAll` | app/room.py:89 | every position of the list is the choice of some seed |
| `Choice.PickSurjective` | app/connection_manager.py:95-96 | every element of the list can be chosen, so the model excludes no outcome of `random.choice` |
| `Seqs.IndexOf` | app/room.py:126 | `list.index` returns the first position holding the value |
| `Seqs.RemoveFirst` | app/room.py:48 | `list.remove` drops exactly the first occurrence and keeps the order of the rest |
| `Seqs.RemoveFirstKeepsOthers` | app/connection_manager.py:36 | after a removal every other value is still present, and no new one appears |
| `Seqs.RemoveFirstMultiset` | ConnectionManager.py:39 | a removal takes exactly one copy of the value out of the list |
| `Seqs.DropAt` | app/connection_manager.py:193 | dropping the element at a position shifts every later element down by one |
| `Text.Latin1Decode` | app/room.py:105 | the ISO-8859-1 decoding maps each byte to the character with the same code |
| `Text.Latin1Encode` | app/room.py:105 | the inverse of the decoding, which the source never calls; it keeps the length and serves `Text.Latin1RoundTrip` to show that no byte is lost |
| `Text.Latin1RoundTrip` | app/room.py:105 | decoding loses no byte: encoding the decoded drawing gives the buffer back |
| `Text.Latin1Injective` | app/room.py:113 | two different drawings never decode to the same text |
| `Text.LowerChar` | app/room.py:60 | an upper-case ASCII letter is mapped to its lower-case letter and the Kelvin sign to 'k'; anything else is kept. The result is ASCII exactly when the character is ASCII or the Kelvin sign |
| `Text.Lower` | app/room.py:60 | `lower()` keeps the length and maps every character by `Text.LowerChar` |
| `Text.LowerHasNoUpper` | app/room.py:60 | a lower-cased text has no upper-case ASCII letter left |
| `Text.LowerIdempotent` | app/room.py:60 | lower-casing twice equals lower-casing once |
| `Scoring.Score` | app/room.py:56 | the score of a guess is `fuzz.ratio` against the clue, and 0 when there is no clue |
| `Clues.Keys` | app/clue.py:17 | the category list has one entry per dictionary entry, in order |
| `Clues.Lookup` | app/clue.py:18 | the word list returned belongs to an entry with that category |
| `Clues.GetNewClue` | app/clue.py:16-19 | the category is a key of the dictionary and the word is in that category's list; IndexError exactly when the dictionary or the chosen list is empty |
| `Clues.LookupUnique` | app/clue.py:18 | with unique keys, looking up an entry's category gives that entry's words |
| `Clues.GetNewClueReachesAll` | app/clue.py:16-19 | every (category, word) pair of the dictionary can be drawn |
| `GameRoom.PlayerIds` | app/room.py:119-120 | the ids of the roster, in join order |
| `GameRoom.NewRoom` | app/room.py:20-28 | a new room is empty, has no game on and satisfies the room invariant |
| `GameRoom.NextPersonMove` | app/room.py:122-134 | the next drawer is always in the roster. It is the player after the current drawer's first position, wrapping to the first player. It is the first player when the drawer is unset, the empty string, or gone. An empty roster raises IndexError |
| `GameRoom.Start` | app/room.py:85-91 | a turn starts with the next drawer, a clue from `CLUES`, an empty drawing and a new deadline; roster and id are unchanged; the invariant holds after |
| `GameRoom.StartGame` | app/room.py:82-91 | starting fails exactly on an empty roster; otherwise a consistent running game on the same roster |
| `GameRoom.EndGame` | app/room.py:93-97 | ending clears game, drawer and clue; roster, drawing and deadline stay as they are |
| `GameRoom.RestartOrEndGame` | app/room.py:76-80 | when the timer fires, a new turn starts with two or more players, and the game ends otherwise |
| `GameRoom.AppendConnection` | app/room.py:41-45 | the newcomer is appended; the game starts exactly when the roster exceeds one and none is running; joining a running game changes nothing else |
| `GameRoom.RemoveConnection` | app/room.py:47-53 | ValueError exactly when the connection is absent. At most one player left ends the game. A departing drawer with two or more left starts a new turn. Any other departure only shrinks the roster |
| `GameRoom.HandlePlayersGuess` | app/room.py:55-69 | GameNotStarted exactly when no game is on. A guess equal to the clue up to case returns WIN with the old clue, the guesser and the old drawer, then starts a new turn. Any other guess leaves the room unchanged and is IS_CLOSE exactly when its ratio exceeds the threshold |
| `GameRoom.DrawerNickIn` | app/room.py:179-181 | finds the nick of the first connection whose player holds the turn, and nothing when no connection does |
| `GameRoom.GetDrawerNick` | app/room.py:177-185 | "drawer: " followed by the drawer's nick, or a single space when no drawer is connected |
| `GameRoom.GetGameState` | app/room.py:99-117 | the drawer's view exactly for the viewer holding the turn, carrying the clue and the deadline. Every other viewer gets the drawer label, plus the deadline only while a game is on. All views carry the drawing byte for byte |
| `GameRoom.Broadcast` | app/room.py:71-74 | each connection is sent its own view, in roster order |
| `GameRoom.GetStats` | app/room.py:136-141 | the stats report the game flag, drawer, clue, the player count and the ids in join order |
| `GameRoomProperties.JoinPreservesConsistent` | app/room.py:41-45 | a join keeps the room invariant; a running game's drawer stays connected |
| `GameRoomProperties.LeavePreservesConsistent` | app/room.py:47-53 | a departure keeps the room invariant |
| `GameRoomProperties.StayerRemains` | app/room.py:48 | a player other than the departing one is still in the roster |
| `GameRoomProperties.EveryEventPreservesConsistent` | app/room.py:85-97 | every join, leave, guess, timer fire, start and end keeps `is_game_on ⇔ clue ≠ None ⇔ whos_turn ≠ None` with the drawer connected |
| `GameRoomProperties.FailingEventsRaise` | app/room.py:47-59 | an event fails exactly when a leaving connection is absent, a guess arrives with no game on, or a start meets an empty roster |
| `GameRoomProperties.PlayerEventsPreservePlayable` | app/room.py:41-53 | as long as the administrative start is not used, a game only runs with at least two players connected |
| `GameRoomProperties.AdminStartWithOnePlayer` | app/room.py:85-91 | the administrative start gives a lone player a running game |
| `GameRoomProperties.NextDrawerFollowsRoster` | app/room.py:122-134 | with unique ids the turn passes from position i to i+1, and from the last player to the first |
| `GameRoomProperties.SecondJoinStartsGame` | app/room.py:41-45 | one player alone waits; the second join starts a game with the first player drawing and an empty drawing |
| `GameRoomProperties.DrawerLeavingRestartsAtFirst` | app/room.py:47-53 | when the drawer of three or more leaves, a new turn starts with the first remaining player drawing, a new clue and an empty drawing |
| `GameRoomProperties.WinningGuessAdvancesTurn` | app/room.py:60-64 | a winning guess reports the guesser and the old drawer, and passes the turn to the next player in join order with an empty drawing |
| `GameRoomProperties.CluesAreLowerCase` | app/room.py:16 | every clue is already lower case |
| `GameRoomProperties.GuessWinsIffLowerIsClue` | app/room.py:60 | on a running game a guess wins exactly when its lower-cased text is the clue |
| `GameRoomProperties.KelvinSignGuessWins` | app/room.py:60 | "pan kanapka" with its first 'k' written as the Kelvin sign wins against the clue "pan kanapka" |
| `GameRoomProperties.OnlyDrawerSeesClue` | app/room.py:99-117 | in a broadcast of a running game exactly one connection gets the drawer's view, and every guesser's view goes to someone other than the drawer |
| `LegacyRoom.PlayerIds` | app/connection_manager.py:95-96 | the ids of the roster, in join order |
| `LegacyRoom.NewRoom` | app/connection_manager.py:22-28 | a new room is empty, has no game on and is consistent |
| `LegacyRoom.Start` | app/connection_manager.py:62-67 | a turn starts with a drawer drawn from the roster, a clue from `CLUES` and an empty drawing |
| `LegacyRoom.StartGameAsWritten` | app/connection_manager.py:62-67 | on an empty roster the drawing is emptied and the game flag set before IndexError is raised |
| `LegacyRoom.StartGame` | app/connection_manager.py:62-67 | corrected: starting fails exactly on an empty roster, before changing anything; otherwise a turn starts as in `LegacyRoom.Start` |
| `LegacyRoom.EndGame` | app/connection_manager.py:69-73 | ending clears game, drawer and clue; roster and drawing stay |
| `LegacyRoom.AppendConnection` | app/connection_manager.py:30-33 | the newcomer is appended and a game is always running afterwards; a running game is left as it is |
| `LegacyRoom.RemoveConnection` | app/connection_manager.py:35-38 | ValueError exactly when absent. At most one player left ends the game. Otherwise only the roster changes, even when the drawer left |
| `LegacyRoom.HandlePlayersGuess` | app/connection_manager.py:40-52 | GameNotStarted with no game on. The exact clue, case included, wins and starts a new turn. Other guesses change nothing and are IS_CLOSE exactly when the score exceeds the threshold |
| `LegacyRoom.PlayerDataOf` | app/connection_manager.py:77-78 | the drawer lookup returns the `player_data` of the first connection with the id, and raises exactly when none has it |
| `LegacyRoom.GetGameState` | app/connection_manager.py:75-92 | the drawer's view, carrying the `player_data` of the first connection with the drawer's id, goes exactly to the viewer holding the turn. It fails exactly when that viewer is not connected. Every view carries the game flag, the drawer and the drawing decoded as ISO-8859-1 |
| `LegacyRoom.GetStats` | app/connection_manager.py:98-102 | the stats report game flag, drawer, clue and player count |
| `LegacyRoomProperties.JoinPreservesConsistent` | app/connection_manager.py:30-33 | a join keeps the room consistent and leaves a game running |
| `LegacyRoomProperties.LeavePreservesConsistent` | app/connection_manager.py:35-38 | a departure keeps the room consistent; a game left running has two or more players |
| `LegacyRoomProperties.GuessPreservesConsistent` | app/connection_manager.py:40-52 | a guess keeps the room consistent and never changes the roster |
| `LegacyRoomProperties.GuessOnRunningGame` | app/connection_manager.py:43-48 | on a running game a guess never fails, and it wins exactly on the clue's own text |
| `LegacyRoomProperties.GuessIsCaseSensitive` | app/connection_manager.py:45 | "ala" does not win against the clue "Ala" |
| `LegacyRoomProperties.DepartedDrawerKeepsTurn` | app/connection_manager.py:35-38 | when the drawer leaves, a game goes on whose drawer is no longer connected |
| `LegacyRoomProperties.StartGameAsWrittenStrandsRoom` | app/connection_manager.py:30-66 | starting an empty room leaves an inconsistent game on with no drawer or clue; a join made while it is on does not start a game and a guess misses; the joiner leaving again ends the game and restores consistency |
| `LegacyRoomProperties.StartGamePreservesConsistent` | app/connection_manager.py:62-67 | the corrected start changes nothing when it fails, and keeps the room consistent when it succeeds |
| `LegacyRoomProperties.DrawerViewCarriesNoClue` | app/connection_manager.py:83 | when no player has `player_data`, the drawer's view carries no clue |
| `Registry.RoomIds` | app/connection_manager.py:183 | the room ids in list order |
| `Registry.Init` | app/connection_manager.py:106-107 | the registry starts with the single room "2" and is valid |
| `Registry.FindRoom` | app/connection_manager.py:111 | the first room with the id |
| `Registry.GetRoom` | app/connection_manager.py:109-113 | the room with the id, or NoRoomWithThisId exactly when no room has it |
| `Registry.SetRoom` | app/connection_manager.py:142 | a room is updated in place; the others are untouched |
| `Registry.CreateNewRoom` | app/connection_manager.py:185-189 | a new empty room is appended exactly when the id is unused; otherwise RoomIdAlreadyInUse and nothing changes |
| `Registry.DeleteRoom` | app/connection_manager.py:191-193 | the named room is removed and the rest keep their order; NoRoomWithThisId exactly when it is absent |
| `Registry.ValidateClientId` | app/connection_manager.py:172-175 | NoRoomWithThisId for an unknown room; PlayerIdAlreadyInUse exactly when the id is already in the room |
| `Registry.ConnectAsWritten` | app/connection_manager.py:131-135 | as written, every connect fails: validation errors as they are, and TypeError from `Player(player_id=...)` for a client that passes validation |
| `Registry.Connect` | app/connection_manager.py:131-135 | corrected, with the player built by its `id` keyword: a validation error leaves everything unchanged; otherwise the new connection is appended to that room |
| `Registry.ConnectSnapshot` | app/connection_manager.py:136-138 | a newcomer is sent the room's view for its id and the room's own drawing; it fails exactly when the room is unknown or the view raises |
| `Registry.FirstOn` | app/connection_manager.py:168-170 | the position of the first connection of a roster on the socket; none before it is on the socket |
| `Registry.FindConnection` | app/connection_manager.py:166-170 | a room and position holding a connection on the socket, with no earlier room and no earlier position of that room on it; nothing exactly when no room has one |
| `Registry.Disconnect` | app/connection_manager.py:144-146 | the first connection on the socket leaves the first room holding one; it fails exactly when no room holds the socket |
| `Registry.HandleWsMessageAsWritten` | app/connection_manager.py:153-160 | as written, the drawer's bytes replace the buffer held by the manager, and the rooms stay unchanged |
| `Registry.HandleWsMessage` | app/connection_manager.py:153-160 | corrected: only the room's drawer replaces the drawing, which is stored on the room; another sender, or a frame without 'bytes', changes nothing |
| `Registry.HandlePlayersGuess` | app/connection_manager.py:162-164 | a guess goes to its room: NoRoomWithThisId for an unknown room, otherwise the room's outcome |
| `Registry.StartGameAsWritten` | app/connection_manager.py:119-121 | as written: on an empty room the error comes with the room's game flag set and its drawing emptied, which breaks the consistency of a consistent room; other rooms are untouched; on a non-empty room it does what `Registry.StartGame` does |
| `Registry.StartGame` | app/connection_manager.py:115-121 | corrected: starting a room fails on an unknown id or an empty roster and then changes nothing; otherwise that room starts a turn |
| `Registry.EndGame` | app/connection_manager.py:123-125 | ending a room ends its game and nothing else |
| `Registry.EndAllGames` | app/connection_manager.py:127-129 | every room's game ends; ids and rosters stay |
| `Registry.GetRoomStats` | app/connection_manager.py:177-179 | the stats of the first room with the id: its game flag, drawer, clue and player count; NoRoomWithThisId exactly when no room has it |
| `Registry.GetOverallStats` | app/connection_manager.py:181-183 | `rooms_count` equals the number of ids listed, which are the rooms' ids in order |
| `RegistryProperties.SetRoomPreservesValid` | app/connection_manager.py:142 | updating a room without changing its id keeps the registry valid |
| `RegistryProperties.RemoveFirstKeepsUnique` | app/connection_manager.py:36 | removing a connection keeps player ids unique |
| `RegistryProperties.CreatePreservesValid` | app/connection_manager.py:185-189 | room ids stay unique after a creation |
| `RegistryProperties.DeletePreservesValid` | app/connection_manager.py:191-193 | after a deletion no room has the id, and every other room is still there |
| `RegistryProperties.ConnectPreservesValid` | app/connection_manager.py:172-175 | player ids stay unique within the room after a connect |
| `RegistryProperties.DisconnectPreservesValid` | app/connection_manager.py:144-146 | a disconnect keeps the registry valid |
| `RegistryProperties.EveryCommandPreservesValid` | app/connection_manager.py:109-193 | with the corrected start and drawing relay, unique room ids, unique player ids per room and consistent rooms survive every command |
| `RegistryProperties.FailingCommandsNameTheirError` | app/connection_manager.py:109-193 | on a valid registry, RoomIdAlreadyInUse comes exactly from a failed creation and NoSuchConnection exactly from a failed disconnect; EmptyChoice comes only from a start and GameNotStarted only from a guess; a taken player id fails the connect with PlayerIdAlreadyInUse |
| `RegistryProperties.AsWrittenStartBreaksValid` | app/connection_manager.py:119-121 | as written, starting the initial room before anyone joins raises and leaves an invalid registry; the corrected start fails with the registry unchanged |
| `RegistryProperties.AsWrittenConnectNeverJoins` | app/connection_manager.py:131-135 | as written, no connect succeeds; a client with a free id in an existing room gets TypeError |
| `RegistryProperties.ConnectAdmitsNewcomer` | app/connection_manager.py:131-135 | corrected, a client with a free id in an existing room joins it, its id is in the room's roster and the registry stays valid |
| `RegistryProperties.AsWrittenNewcomerMissesDrawing` | app/connection_manager.py:153-160 | as written, a player connecting after the drawer's drawing is sent an empty drawing |
| `RegistryProperties.NewcomerReceivesLatestDrawing` | app/connection_manager.py:136-138 | corrected, a player connecting after a drawing is sent exactly that drawing |
| `RegistryProperties.DrawingReplacesNotAppends` | app/connection_manager.py:157 | the same drawing sent twice leaves the room as one sending does; the room holds that drawing |
| `SingleRoom.PlayerIds` | ConnectionManager.py:35 | the ids of the roster in join order |
| `SingleRoom.Init` | ConnectionManager.py:16-20 | no connection, no game, `whos_turn` 0 and an empty drawing |
| `SingleRoom.Start` | ConnectionManager.py:33-35 | a game on with a drawer drawn from the connected ids |
| `SingleRoom.StartGame` | ConnectionManager.py:33-35 | the game flag is always set; an empty roster then raises IndexError with the drawer unchanged |
| `SingleRoom.AppendConnection` | ConnectionManager.py:28-31 | the newcomer is appended, and from two connections on every join starts a game with a connected drawer |
| `SingleRoom.PlayerDataOf` | ConnectionManager.py:58-59 | returns the `player_data` of the first connection with the id, and raises exactly when none has it |
| `SingleRoom.GetGameState` | ConnectionManager.py:56-73 | the drawer's view exactly for the viewer whose id is `whos_turn`, carrying the `player_data` of the first connection with that id; every view carries the game flag, drawer and drawing |
| `SingleRoom.Connect` | ConnectionManager.py:22-26 | the joining client is appended and sent its own view of the new state |
| `SingleRoom.ConnectionOn` | ConnectionManager.py:38 | the first connection on the socket, or nothing exactly when there is none |
| `SingleRoom.Disconnect` | ConnectionManager.py:37-39 | the first connection on the socket leaves and the others keep their join order; game flag, drawer and drawing are unchanged; StopIteration exactly when none is on it |
| `SingleRoom.HandleMessage` | ConnectionManager.py:48-54 | the drawing is replaced only by a message carrying the sender's own id and 'bytes'; otherwise nothing changes |
| `SingleRoom.LoneConnectionSeesInitialState` | test/connection_test.py:9-22 | a lone client with a non-zero id is sent: no game, `whos_turn` 0, empty drawing |
| `SingleRoom.ClientZeroLooksLikeDrawer` | ConnectionManager.py:57-65 | a lone client with id 0 matches the sentinel `whos_turn` 0 and gets the drawer's view |
| `SingleRoom.SecondConnectionStartsGame` | test/connection_test.py:24-41 | after clients 1 and 2 join, the second sees a running game drawn by 1 or 2 and an empty drawing |
| `SingleRoom.HandleMessageIdempotent` | ConnectionManager.py:51 | a drawing sent twice leaves the state as one sending does |

## Findings

| source | as written | input that shows it | evidently intended | confidence | as-written member | corrected member |
|---|---|---|---|---|---|---|
| app/connection_manager.py:62-66 | `start_game` empties the drawing and sets `is_game_on` before `random.choice` raises on an empty roster | call `start_game` on a room with no players: the room stays "on" with no drawer or clue; joins made while the stranded game is still on never start one, and guesses miss, until an administrative end or a departure that leaves at most one player | check the roster before changing the room, as app/room.py does | medium, not executed | `LegacyRoomProperties.StartGameAsWrittenStrandsRoom` | `LegacyRoomProperties.StartGamePreservesConsistent` |
| app/connection_manager.py:157 | the drawer's bytes are stored in `self.game_data` on the manager, not on the room | in room "2", player "a" joins and draws `[7]`; then player "b" connects and is sent the room's `game_data`, which is empty (the joins go through the corrected `Registry.Connect`, because as written no connect succeeds; see the next row) | `room.game_data = message['bytes']` | high, not executed | `RegistryProperties.AsWrittenNewcomerMissesDrawing` | `RegistryProperties.NewcomerReceivesLatestDrawing` |
| app/connection_manager.py:134 | the player is built as `Player(player_id=client_id)`, but the constructor in app/player.py:5 takes `id` | client "a" connects to room "2" of a new registry: validation passes, the socket is accepted, and building the player raises TypeError, so "a" never joins | `Player(id=client_id)`, as ConnectionManager.py:24 does | high, not executed | `RegistryProperties.AsWrittenConnectNeverJoins` | `RegistryProperties.ConnectAdmitsNewcomer` |

## Left out

- The turn timer is left out: `threading.Timer`, `asyncio.run` and the wall-clock `timestamp` (app/room.py:28, 37-39, 143-147). These are threads and real time. A timer firing is modelled as a call of `GameRoom.RestartOrEndGame`, and the deadline is an input.
- `export_clue` and `export_room_status` (app/room.py:149-175) are one-way HTTP calls whose failures are swallowed. They change no room state.
- `get_timeout` (app/room.py:30-35) reads an environment variable; the timeout only enters through the deadline input.
- Accepting websockets, `send_text` and `send_bytes`, the broadcast loops, and the FastAPI endpoints of app/main.py and main.py are transport I/O. This includes `/ws_test` with its random bytes. `GameRoom.Broadcast` and `Registry.ConnectSnapshot` model what is sent.
- `json.dumps` is replaced by the `View` datatypes.
- The internals of `fuzz.ratio` are not modelled. The ratio is an uninterpreted parameter ranging over 0..100.
- `ClueManager.read_clue` (app/clue.py:9-14) reads a file; the dictionary is a parameter.
- app/logger.py only logs.
- app/player.py and app/server_errors.py hold the `Player` record and the exception classes. They appear as the `Player` and `ServerError` datatypes.
- SingleRoom.HandleMessage: reads the message as a parsed dictionary whose 'bytes' value can be serialised to JSON, as test/connection_test.py:57 sends it. As main.py:51-52 calls it, with the raw frame of `websocket.receive()`, the frame has no "id" key, so the KeyError is caught and the drawing is never stored. A Python `bytes` payload, if one were stored, would make `json.dumps` in `get_game_state` (ConnectionManager.py:73) raise TypeError, both in the broadcast and in every later view. `SingleRoom.GetGameState` returns those bytes instead.
- Registry.Connect: uses two corrections of app/connection_manager.py. The player is built with the `id` keyword that app/player.py:5 takes; the code as written passes `player_id` and raises TypeError (`Registry.ConnectAsWritten`). The exceptions `PlayerIdAlreadyInUse`, `NoRoomWithThisId` and `RoomIdAlreadyInUse` imported at app/connection_manager.py:10 are taken to exist as `ServerError` constructors. app/server_errors.py defines only `WsServerError`, `GameNotStarted` and `IdAlreadyInUse`, so as written the module cannot be imported at all. The model does not represent that failure.
- app/test/game_test.py calls `check_players_clue` and `Room(2, "en")`, and expects punctuation stripping and a no-repeat clue history. None of these exist in the room code.
- `end_game` and `restart_game` of ConnectionManager.py do not exist, although main.py calls them.
- `Registry.broadcast`'s relay of the manager's buffer to a room's sockets is transport I/O.
- app/ConnectionManager, which app/main.py imports, is not part of this model.
- Text.Lower: maps only ASCII capitals and U+212A KELVIN SIGN, whereas Python's `str.lower()` covers all of Unicode; for instance U+0130 lowers to 'i' followed by a combining dot, and 'Ą' to 'ą'. U+212A and U+0130 are the only non-ASCII characters whose lower case in Python holds an ASCII character. Every clue in the source is plain ASCII, so comparing a lower-cased guess with a clue gives the same answer as in Python.
- Text.LowerChar: keeps every non-ASCII character other than the Kelvin sign, for the reason given for `Text.Lower`.
- GameRoom.HandlePlayersGuess: compares the guess with `Text.Lower`; for the ASCII clues of `CLUES` this decides a win as Python does, including a guess that spells a 'k' with the Kelvin sign (`GameRoomProperties.KelvinSignGuessWins`).
- Registry.StartGame: uses the corrected `LegacyRoom.StartGame`. As written, an empty room is left with its game flag set and its drawing emptied; `Registry.StartGameAsWritten` models that.
- RegistryProperties.EveryCommandPreservesValid: holds over the corrected `Registry.StartGame` and `Registry.HandleWsMessage`. With the start as written, starting an empty room breaks the invariant (`RegistryProperties.AsWrittenStartBreaksValid`). The drawing relay as written leaves every room unchanged.
- GameRoom.Start: the deadline is an input rather than `datetime.now() + timeout`, so the contract cannot state how far ahead it lies.
- Concurrency is not modelled. This covers interleaving a timer fire with a request, and per-room locking. Every operation is one atomic transition.

=== FILE: clues.dfy ===
/** The clue picker of app/clue.py. The clue dictionary, read from a JSON
    object, maps a category name to its list of words; it is kept as the
    sequence of its entries in file order, since `random.choice` picks from
    `list(clue_dict.keys())`. */
module Clues {
  import opened Wrappers
  import opened ServerErrors
  import Choice

  datatype Entry = Entry(category: string, words: seq<string>)

  type ClueDict = seq<Entry>

  /** A JSON object has each key once. */
  predicate ValidDict(d: ClueDict) {
    forall i, j :: 0 <= i < j < |d| ==> d[i].category != d[j].category
  }

  /** `list(clue_dict.keys())`. */
  function Keys(d: ClueDict): (ks: seq<string>)
    ensures |ks| == |d|
    ensures forall i :: 0 <= i < |d| ==> ks[i] == d[i].category
  {
    seq(|d|, i requires 0 <= i < |d| => d[i].category)
  }

  /** `clue_dict[category]`. */
  function Lookup(d: ClueDict, category: string): (words: seq<string>)
    requires category in Keys(d)
    ensures exists i :: 0 <= i < |d| && d[i].category == category && d[i].words == words
  {
    if d[0].category == category then d[0].words else Lookup(d[1..], category)
  }

  /** A clue drawn with the two random sources: first a category, then a word of it. */
  datatype Seeds = Seeds(category: nat, word: nat)

  /** `get_new_clue`: a (category, word) pair, or the IndexError that
      `random.choice` raises on an empty dictionary or an empty word list. */
  function GetNewClue(d: ClueDict, seeds: Seeds): (r: Result<(string, string), ServerError>)
    requires ValidDict(d)
    ensures r.Failure? ==> r.error == EmptyChoice
    ensures r.Failure? <==> |d| == 0 || |d[seeds.category % |d|].words| == 0
    ensures r.Success? ==> r.value.0 in Keys(d) && r.value.1 in Lookup(d, r.value.0)
  {
    if |d| == 0 then Failure(EmptyChoice)
    else
      var category := Choice.Pick(Keys(d), seeds.category);
      var words := Lookup(d, category);
      if |words| == 0 then Failure(EmptyChoice)
      else Success((category, Choice.Pick(words, seeds.word)))
  }

  /** With unique keys, `clue_dict[category]` is the word list of the entry carrying that key. */
  lemma {:induction false} LookupUnique(d: ClueDict, i: nat)
    requires ValidDict(d) && i < |d|
    ensures Lookup(d, d[i].category) == d[i].words
  {
    if i > 0 {
      assert d[0].category != d[i].category;
      assert d[1..][i - 1] == d[i];
      LookupUnique(d[1..], i - 1);
    }
  }

  /** Every pair the dictionary holds can be drawn: the picker rules out no (category, word). */
  lemma GetNewClueReachesAll(d: ClueDict, i: nat, j: nat)
    requires ValidDict(d) && i < |d| && j < |d[i].words|
    ensures GetNewClue(d, Seeds(i, j)) == Success((d[i].category, d[i].words[j]))
  {
    LookupUnique(d, i);
    Choice.PickReachesAll(Keys(d), i);
    Choice.PickReachesAll(d[i].words, j);
  }
}

=== FILE: game_room.dfy ===
/** The per-room game state machine of app/room.py.

    A room holds its roster of connections in join order, whether a game is
    on, whose turn it is, the clue the drawer has to draw, the drawing buffer
    and the deadline of the running turn. Every transition is a pure function
    from the old room to the new one. The random pick of a clue and the wall
    clock are inputs (`Env`); the timer, the HTTP exports and the broadcasts
    are not part of this model. */
module GameRoom {
  import opened Wrappers
  import opened ServerErrors
  import opened Text
  import opened Scoring
  import Seqs
  import Choice

  type PlayerId = string

  datatype Player = Player(id: PlayerId, nick: string)

  /** A websocket (an opaque handle) bound to a player. */
  datatype Connection = Connection(ws: nat, player: Player)

  /** The fixed clue list of app/room.py. */
  const CLUES: seq<string> := ["jeden", "dwa", "trzy", "cztery", "owocowe czwartki", "pan kanapka"]

  /** What a transition that may start a turn reads from outside the room:
      the seed of `random.choice(CLUES)` and the instant `now + timeout`. */
  datatype Env = Env(clueSeed: nat, deadline: int)

  datatype Room = Room(
    id: string,
    roster: seq<Connection>,
    isGameOn: bool,
    gameData: seq<byte>,
    whosTurn: Option<PlayerId>,
    clue: Option<string>,
    deadline: Option<int>)

  datatype PlayerGuess = PlayerGuess(playerId: PlayerId, message: string)

  datatype GuessResult =
    | Win(clue: string, winner: PlayerId, drawer: PlayerId)
    | IsClose
    | Miss

  /** The two shapes of the state a viewer is sent: only the drawer's carries the clue. */
  datatype View =
    | DrawerView(isGameOn: bool, whosTurn: Option<PlayerId>, sequenceToGuess: string,
                 gameData: string, timestamp: Option<int>)
    | GuesserView(isGameOn: bool, whosTurn: Option<PlayerId>, drawer: string,
                  gameData: string, timestamp: Option<int>)

  datatype Stats = Stats(isGameOn: bool, whosTurn: Option<PlayerId>, connectedPlayers: nat,
                         playersIds: seq<PlayerId>, clue: Option<string>)

  /** `get_players_ids`: the player ids of the roster, in join order. */
  function PlayerIds(roster: seq<Connection>): (ids: seq<PlayerId>)
    ensures |ids| == |roster|
    ensures forall i :: 0 <= i < |roster| ==> ids[i] == roster[i].player.id
  {
    seq(|roster|, i requires 0 <= i < |roster| => roster[i].player.id)
  }

  /** The room invariant: a game is on exactly when there is a clue and a
      drawer, the drawer is in the roster, the clue is one of `CLUES`, and a
      running turn has a deadline. */
  predicate Consistent(r: Room) {
    && (r.isGameOn <==> r.clue.Some?)
    && (r.isGameOn <==> r.whosTurn.Some?)
    && (r.whosTurn.Some? ==> r.whosTurn.value in PlayerIds(r.roster))
    && (r.clue.Some? ==> r.clue.value in CLUES)
    && (r.isGameOn ==> r.deadline.Some?)
  }

  /** `Room.__init__`: nobody connected and no game on. */
  function NewRoom(id: string): (r: Room)
    ensures Consistent(r)
    ensures r.id == id && r.roster == [] && !r.isGameOn && r.gameData == []
  {
    Room(id, [], false, [], None, None, None)
  }

  /** Python truthiness of `self.whos_turn`: neither `None` nor the empty string. */
  predicate HasTurn(whosTurn: Option<PlayerId>) {
    whosTurn.Some? && whosTurn.value != ""
  }

  /** `next_person_move`: the player after the current drawer in join order,
      wrapping to the first player; the first player when the drawer is unset
      or gone. On an empty roster the `[0]` lookup raises IndexError. */
  function NextPersonMove(r: Room): (res: Result<PlayerId, ServerError>)
    ensures res.Failure? <==> r.roster == []
    ensures res.Failure? ==> res.error == EmptyChoice
    ensures res.Success? ==> res.value in PlayerIds(r.roster)
    ensures res.Success? && (!HasTurn(r.whosTurn) || r.whosTurn.value !in PlayerIds(r.roster))
            ==> res.value == r.roster[0].player.id
    ensures forall i :: 0 <= i < |r.roster| && HasTurn(r.whosTurn)
                        && r.roster[i].player.id == r.whosTurn.value
                        && (forall j :: 0 <= j < i ==> r.roster[j].player.id != r.whosTurn.value)
                        ==> res == Success(if i + 1 < |r.roster| then r.roster[i + 1].player.id
                                           else r.roster[0].player.id)
  {
    var ids := PlayerIds(r.roster);
    if |ids| == 0 then Failure(EmptyChoice)
    else if HasTurn(r.whosTurn) && r.whosTurn.value in ids then
      var i := Seqs.IndexOf(ids, r.whosTurn.value);
      if i + 1 < |ids| then Success(ids[i + 1]) else Success(ids[0])
    else Success(ids[0])
  }

  /** `start_game` on a non-empty roster: the next drawer, a fresh clue, an
      empty drawing and a new deadline. */
  function Start(r: Room, env: Env): (r': Room)
    requires r.roster != []
    ensures r'.isGameOn && r'.gameData == []
    ensures r'.whosTurn == Some(NextPersonMove(r).value)
    ensures r'.clue.Some? && r'.clue.value in CLUES
    ensures r'.deadline == Some(env.deadline)
    ensures r'.id == r.id && r'.roster == r.roster
    ensures Consistent(r')
  {
    r.(whosTurn := Some(NextPersonMove(r).value),
       gameData := [],
       isGameOn := true,
       clue := Some(Choice.Pick(CLUES, env.clueSeed)),
       deadline := Some(env.deadline))
  }

  /** `start_game` as the administrative surface calls it: on an empty
      roster the drawer lookup raises before anything is changed. */
  function StartGame(r: Room, env: Env): (res: Result<Room, ServerError>)
    ensures res.Failure? <==> r.roster == []
    ensures res.Failure? ==> res.error == EmptyChoice
    ensures res.Success? ==> res.value.isGameOn && Consistent(res.value)
                             && res.value.roster == r.roster
  {
    if r.roster == [] then Failure(EmptyChoice) else Success(Start(r, env))
  }

  /** `end_game`: no game, no drawer, no clue; roster, drawing and the last
      deadline stay as they were. */
  function EndGame(r: Room): (r': Room)
    ensures !r'.isGameOn && r'.whosTurn.None? && r'.clue.None?
    ensures r'.id == r.id && r'.roster == r.roster && r'.gameData == r.gameData
    ensures r'.deadline == r.deadline
    ensures Consistent(r')
  {
    r.(isGameOn := false, whosTurn := None, clue := None)
  }

  /** `restart_or_end_game`, what the turn timer does when it fires: a new
      turn while two players remain, otherwise the end of the game. */
  function RestartOrEndGame(r: Room, env: Env): (r': Room)
    ensures |r.roster| >= 2 ==> r' == Start(r, env)
    ensures |r.roster| < 2 ==> r' == EndGame(r)
  {
    if |r.roster| >= 2 then Start(r, env) else EndGame(r)
  }

  /** `append_connection`: the newcomer goes to the end of the roster; the
      game starts when the second player arrives and none is running. */
  function AppendConnection(r: Room, c: Connection, env: Env): (r': Room)
    ensures r'.roster == r.roster + [c]
    ensures r'.isGameOn <==> r.isGameOn || |r.roster| + 1 > 1
    ensures !r.isGameOn && |r.roster| + 1 > 1 ==> r' == Start(r.(roster := r.roster + [c]), env)
    ensures r.isGameOn || |r.roster| + 1 <= 1 ==> r' == r.(roster := r.roster + [c])
  {
    var joined := r.(roster := r.roster + [c]);
    if |joined.roster| > 1 && !joined.isGameOn then Start(joined, env) else joined
  }

  /** `remove_connection`: the connection leaves the roster (ValueError if it
      is not there); with at most one player left the game ends; if the
      drawer left while the game goes on, a new turn starts. */
  function RemoveConnection(r: Room, c: Connection, env: Env): (res: Result<Room, ServerError>)
    ensures res.Failure? <==> c !in r.roster
    ensures res.Failure? ==> res.error == NoSuchConnection
    ensures res.Success? ==> res.value.roster == Seqs.RemoveFirst(r.roster, c)
    ensures res.Success? && |r.roster| - 1 <= 1 ==> res.value == EndGame(r.(roster := Seqs.RemoveFirst(r.roster, c)))
    ensures res.Success? && |r.roster| - 1 >= 2 && r.whosTurn == Some(c.player.id)
            ==> res.value == Start(r.(roster := Seqs.RemoveFirst(r.roster, c)), env)
    ensures res.Success? && |r.roster| - 1 >= 2 && r.whosTurn != Some(c.player.id)
            ==> res.value == r.(roster := Seqs.RemoveFirst(r.roster, c))
  {
    if c !in r.roster then Failure(NoSuchConnection)
    else
      var left := r.(roster := Seqs.RemoveFirst(r.roster, c));
      var settled := if |left.roster| <= 1 then EndGame(left) else left;
      if settled.whosTurn == Some(c.player.id) then Success(Start(settled, env))
      else Success(settled)
  }

  /** `handle_players_guess`: GameNotStarted while no game is on; a guess
      equal to the clue up to case wins and starts the next turn; otherwise
      the room is unchanged and the guess is close when its score exceeds
      the threshold. */
  function HandlePlayersGuess(r: Room, guess: PlayerGuess, ratio: (string, string) -> Ratio,
                              scoreThresh: int, env: Env): (res: Result<(Room, GuessResult), ServerError>)
    requires Consistent(r)
    ensures res.Failure? <==> !r.isGameOn
    ensures res.Failure? ==> res.error == GameNotStarted
    ensures res.Success? && Lower(guess.message) == Lower(r.clue.value)
            ==> res.value.1 == Win(r.clue.value, guess.playerId, r.whosTurn.value)
                && res.value.0 == Start(r, env)
    ensures res.Success? && Lower(guess.message) != Lower(r.clue.value) ==> res.value.0 == r
    ensures res.Success? ==> (res.value.1 == IsClose <==>
              Lower(guess.message) != Lower(r.clue.value) && ratio(guess.message, r.clue.value) > scoreThresh)
  {
    if !r.isGameOn then Failure(GameNotStarted)
    else if Lower(guess.message) == Lower(r.clue.value) then
      Success((Start(r, env), Win(r.clue.value, guess.playerId, r.whosTurn.value)))
    else if Score(ratio, guess.message, r.clue) > scoreThresh then Success((r, IsClose))
    else Success((r, Miss))
  }

  /** The nick of the first connection whose player holds the turn, if any. */
  function DrawerNickIn(roster: seq<Connection>, whosTurn: Option<PlayerId>): (nick: Option<string>)
    ensures nick.None? <==> forall i :: 0 <= i < |roster| ==> Some(roster[i].player.id) != whosTurn
    ensures nick.Some? ==> exists i :: 0 <= i < |roster| && Some(roster[i].player.id) == whosTurn
                                       && roster[i].player.nick == nick.value
                                       && forall j :: 0 <= j < i ==> Some(roster[j].player.id) != whosTurn
  {
    if roster == [] then None
    else if Some(roster[0].player.id) == whosTurn then Some(roster[0].player.nick)
    else
      var rest := DrawerNickIn(roster[1..], whosTurn);
      assert forall i :: 1 <= i < |roster| ==> roster[i] == roster[1..][i - 1];
      rest
  }

  /** `get_drawer_nick`: the label guessers see instead of the clue. */
  function GetDrawerNick(r: Room): (caption: string)
    ensures DrawerNickIn(r.roster, r.whosTurn).Some? ==> caption == "drawer: " + DrawerNickIn(r.roster, r.whosTurn).value
    ensures r.whosTurn.None? ==> caption == " "
    ensures (forall i :: 0 <= i < |r.roster| ==> Some(r.roster[i].player.id) != r.whosTurn) ==> caption == " "
  {
    match DrawerNickIn(r.roster, r.whosTurn)
    case Some(nick) => "drawer: " + nick
    case None => " "
  }

  /** `get_game_state` for one viewer: the drawer is sent the clue and the
      deadline; everybody else is sent the drawer's label, and the deadline
      only while a game is on. Every viewer gets the same drawing, decoded
      byte for byte. */
  function GetGameState(r: Room, viewer: PlayerId): (v: View)
    requires Consistent(r)
    ensures v.DrawerView? <==> r.whosTurn == Some(viewer)
    ensures v.isGameOn == r.isGameOn && v.whosTurn == r.whosTurn
    ensures |v.gameData| == |r.gameData|
    ensures forall i :: 0 <= i < |r.gameData| ==> v.gameData[i] as int == r.gameData[i] as int
    ensures v.DrawerView? ==> r.clue.Some? && v.sequenceToGuess == r.clue.value
                              && v.timestamp.Some? && v.timestamp == r.deadline
    ensures v.GuesserView? ==> v.drawer == GetDrawerNick(r)
                               && (v.timestamp.Some? <==> r.isGameOn)
                               && (r.isGameOn ==> v.timestamp == r.deadline)
  {
    if r.whosTurn == Some(viewer) then
      DrawerView(r.isGameOn, r.whosTurn, r.clue.value, Latin1Decode(r.gameData), r.deadline)
    else
      GuesserView(r.isGameOn, r.whosTurn, GetDrawerNick(r), Latin1Decode(r.gameData),
                  if r.isGameOn then r.deadline else None)
  }

  /** `broadcast_json`: the state each connection is sent, in roster order. */
  function Broadcast(r: Room): (views: seq<View>)
    requires Consistent(r)
    ensures |views| == |r.roster|
    ensures forall i :: 0 <= i < |r.roster| ==> views[i] == GetGameState(r, r.roster[i].player.id)
  {
    seq(|r.roster|, i requires 0 <= i < |r.roster| => GetGameState(r, r.roster[i].player.id))
  }

  /** `get_stats`: the administrative summary of the room. */
  function GetStats(r: Room): (st: Stats)
    ensures st.isGameOn == r.isGameOn && st.whosTurn == r.whosTurn && st.clue == r.clue
    ensures st.connectedPlayers == |r.roster| == |st.playersIds|
    ensures forall i :: 0 <= i < |r.roster| ==> st.playersIds[i] == r.roster[i].player.id
  {
    Stats(r.isGameOn, r.whosTurn, |r.roster|, PlayerIds(r.roster), r.clue)
  }
}

=== FILE: game_room_properties.dfy ===
/** Properties of the app/room.py state machine that relate several
    transitions: the room invariant, round-robin turn order, what a leaving
    drawer and a winning guess do to the turn, and who is sent the clue. */
module GameRoomProperties {
  import opened Wrappers
  import opened ServerErrors
  import opened Text
  import opened Scoring
  import opened GameRoom
  import Seqs

  /** No two connections of the roster belong to the same player id; the
      registry refuses a second connection with an id already in the room. */
  predicate UniqueIds(roster: seq<Connection>) {
    forall i, j :: 0 <= i < j < |roster| ==> roster[i].player.id != roster[j].player.id
  }

  /** Everything that can happen to a room: players join and leave, guesses
      arrive, the turn timer fires, and the administrative surface starts or
      ends the game. */
  datatype Event =
    | Join(c: Connection)
    | Leave(c: Connection)
    | Guess(guess: PlayerGuess)
    | Timeout
    | AdminStart
    | AdminEnd

  /** The room after an event, or the exception the event raises (the room is then unchanged). */
  function Apply(r: Room, e: Event, ratio: (string, string) -> Ratio, env: Env): Result<Room, ServerError>
    requires Consistent(r)
  {
    match e
    case Join(c) => Success(AppendConnection(r, c, env))
    case Leave(c) => RemoveConnection(r, c, env)
    case Guess(g) =>
      var res := HandlePlayersGuess(r, g, ratio, DEFAULT_SCORE_THRESH, env);
      if res.Success? then Success(res.value.0) else Failure(res.error)
    case Timeout => Success(RestartOrEndGame(r, env))
    case AdminStart => StartGame(r, env)
    case AdminEnd => Success(EndGame(r))
  }

  /** The invariant the game relies on once only players and the timer act:
      a game runs only while at least two players are connected. */
  predicate Playable(r: Room) {
    Consistent(r) && (r.isGameOn ==> |r.roster| >= 2)
  }

  /** A player who did not leave is still in the roster after a departure. */
  lemma StayerRemains(roster: seq<Connection>, c: Connection, id: PlayerId)
    requires c in roster && id in PlayerIds(roster) && id != c.player.id
    ensures id in PlayerIds(Seqs.RemoveFirst(roster, c))
  {
    var k :| 0 <= k < |roster| && roster[k].player.id == id;
    Seqs.RemoveFirstKeepsOthers(roster, c, roster[k]);
    var rest := Seqs.RemoveFirst(roster, c);
    var m :| 0 <= m < |rest| && rest[m] == roster[k];
    assert PlayerIds(rest)[m] == id;
  }

  /** Joining keeps the room consistent: a running game keeps its drawer, who is still connected. */
  lemma JoinPreservesConsistent(r: Room, c: Connection, env: Env)
    requires Consistent(r)
    ensures Consistent(AppendConnection(r, c, env))
  {
    if r.whosTurn.Some? {
      var k :| 0 <= k < |r.roster| && r.roster[k].player.id == r.whosTurn.value;
      assert PlayerIds(r.roster + [c])[k] == r.whosTurn.value;
    }
  }

  /** Leaving keeps the room consistent: the drawer either stays, or a new turn or the end follows. */
  lemma LeavePreservesConsistent(r: Room, c: Connection, env: Env)
    requires Consistent(r)
    ensures var res := RemoveConnection(r, c, env);
            res.Success? ==> Consistent(res.value)
  {
    if c in r.roster && r.whosTurn.Some? && r.whosTurn.value != c.player.id {
      StayerRemains(r.roster, c, r.whosTurn.value);
    }
  }

  /** `is_game_on ⇔ clue ≠ None ⇔ whos_turn ≠ None`, with the drawer connected,
      holds after every event, from a new room onward. */
  lemma EveryEventPreservesConsistent(r: Room, e: Event, ratio: (string, string) -> Ratio, env: Env)
    requires Consistent(r)
    ensures var res := Apply(r, e, ratio, env);
            res.Success? ==> Consistent(res.value)
  {
    match e
    case Join(c) => JoinPreservesConsistent(r, c, env);
    case Leave(c) => LeavePreservesConsistent(r, c, env);
    case _ =>
  }

  /** A failing event is one of the exceptions the source raises, each raised before any change. */
  lemma FailingEventsRaise(r: Room, e: Event, ratio: (string, string) -> Ratio, env: Env)
    requires Consistent(r)
    ensures var res := Apply(r, e, ratio, env);
            res.Failure? <==> (e.Leave? && e.c !in r.roster) || (e.Guess? && !r.isGameOn)
                              || (e.AdminStart? && r.roster == [])
  {
  }

  /** Without the administrative start, a game never runs with fewer than two players. */
  lemma PlayerEventsPreservePlayable(r: Room, e: Event, ratio: (string, string) -> Ratio, env: Env)
    requires Playable(r) && !e.AdminStart?
    ensures var res := Apply(r, e, ratio, env);
            res.Success? ==> Playable(res.value)
  {
    EveryEventPreservesConsistent(r, e, ratio, env);
  }

  /** The administrative start ignores the two-player threshold: a lone player gets a game. */
  lemma AdminStartWithOnePlayer(c: Connection, env: Env)
    ensures var lone := AppendConnection(NewRoom("room"), c, env);
            !lone.isGameOn
            && StartGame(lone, env).Success?
            && StartGame(lone, env).value.isGameOn
            && |StartGame(lone, env).value.roster| == 1
  {
  }

  /** Round robin: the turn passes from the player at index `i` to the one
      joined right after, and from the last player back to the first. */
  lemma NextDrawerFollowsRoster(r: Room, i: nat)
    requires UniqueIds(r.roster) && i < |r.roster|
    requires r.whosTurn == Some(r.roster[i].player.id) && r.roster[i].player.id != ""
    ensures NextPersonMove(r) == Success(if i + 1 < |r.roster| then r.roster[i + 1].player.id
                                         else r.roster[0].player.id)
  {
    var ids := PlayerIds(r.roster);
    assert ids[i] == r.whosTurn.value;
    var idx := Seqs.IndexOf(ids, r.whosTurn.value);
    assert idx == i;

  }

  /** Two players join an empty room: the first one alone waits; the second
      one's arrival starts the game with the first player drawing. */
  lemma SecondJoinStartsGame(a: Connection, b: Connection, env: Env)
    ensures var one := AppendConnection(NewRoom("room"), a, env);
            !one.isGameOn && one.whosTurn.None? && one.clue.None?
    ensures var two := AppendConnection(AppendConnection(NewRoom("room"), a, env), b, env);
            two.isGameOn && two.whosTurn == Some(a.player.id) && two.clue.Some?
            && two.gameData == [] && two.roster == [a, b]
  {
  }

  /** When the drawer leaves and at least two players remain, a new turn
      starts with the first remaining player drawing: the departed id is no
      longer found in the roster, so the rotation falls back to index 0. */
  lemma DrawerLeavingRestartsAtFirst(r: Room, k: nat, env: Env)
    requires Consistent(r) && UniqueIds(r.roster)
    requires k < |r.roster| && |r.roster| >= 3
    requires r.whosTurn == Some(r.roster[k].player.id)
    ensures var res := RemoveConnection(r, r.roster[k], env);
            && res.Success?
            && res.value.roster == r.roster[..k] + r.roster[k + 1..]
            && res.value.isGameOn && res.value.gameData == []
            && res.value.whosTurn == Some(res.value.roster[0].player.id)
            && res.value.clue.Some? && res.value.clue.value in CLUES
  {
    var c := r.roster[k];
    assert Seqs.IndexOf(r.roster, c) == k;
    var rest := Seqs.RemoveFirst(r.roster, c);
    assert rest == r.roster[..k] + r.roster[k + 1..];
    forall j | 0 <= j < |rest|
      ensures rest[j].player.id != c.player.id
    {
      if j < k { assert rest[j] == r.roster[j]; } else { assert rest[j] == r.roster[j + 1]; }
    }
    assert c.player.id !in PlayerIds(rest);
  }

  /** A guess equal to the clue up to case wins for the guesser, names the
      old drawer, and hands the turn to the next player in join order with a
      new clue and an empty drawing. */
  lemma WinningGuessAdvancesTurn(r: Room, g: PlayerGuess, ratio: (string, string) -> Ratio,
                                 env: Env, i: nat)
    requires Consistent(r) && UniqueIds(r.roster) && i < |r.roster|
    requires r.whosTurn == Some(r.roster[i].player.id) && r.roster[i].player.id != ""
    requires Lower(g.message) == Lower(r.clue.value)
    ensures var res := HandlePlayersGuess(r, g, ratio, DEFAULT_SCORE_THRESH, env);
            && res.Success?
            && res.value.1 == Win(r.clue.value, g.playerId, r.roster[i].player.id)
            && res.value.0.whosTurn == Some(if i + 1 < |r.roster| then r.roster[i + 1].player.id
                                            else r.roster[0].player.id)
            && res.value.0.gameData == [] && res.value.0.roster == r.roster
  {
    NextDrawerFollowsRoster(r, i);
  }

  /** Every clue of the list is already lower case. */
  lemma CluesAreLowerCase()
    ensures forall i :: 0 <= i < |CLUES| ==> Lower(CLUES[i]) == CLUES[i]
  {
  }

  /** Case does not matter: a guess wins exactly when its lower-cased text is the clue. */
  lemma GuessWinsIffLowerIsClue(r: Room, g: PlayerGuess, ratio: (string, string) -> Ratio, env: Env)
    requires Consistent(r) && r.isGameOn
    ensures var res := HandlePlayersGuess(r, g, ratio, DEFAULT_SCORE_THRESH, env);
            res.Success? && (res.value.1.Win? <==> Lower(g.message) == r.clue.value)
  {
    CluesAreLowerCase();
  }

  /** Python lower-cases the Kelvin sign to 'k', so "pan kanapka" with its
      first 'k' written as U+212A wins against the clue "pan kanapka". */
  lemma KelvinSignGuessWins(r: Room, g: PlayerGuess, ratio: (string, string) -> Ratio, env: Env)
    requires Consistent(r) && r.clue == Some("pan kanapka")
    requires g.message == "pan " + [KELVIN] + "anapka"
    ensures var res := HandlePlayersGuess(r, g, ratio, DEFAULT_SCORE_THRESH, env);
            res.Success? && res.value.1.Win?
  {
    assert Lower(g.message) == "pan kanapka";
  }

  /** Only the drawer is sent the clue: in one broadcast of a running game
      exactly one connection receives the drawer's view. */
  lemma OnlyDrawerSeesClue(r: Room)
    requires Consistent(r) && UniqueIds(r.roster) && r.isGameOn
    ensures exists i :: 0 <= i < |r.roster| && Broadcast(r)[i].DrawerView?
    ensures forall i, j :: (0 <= i < |r.roster| && 0 <= j < |r.roster|
                            && Broadcast(r)[i].DrawerView? && Broadcast(r)[j].DrawerView?) ==> i == j
    ensures forall i :: 0 <= i < |r.roster| && Broadcast(r)[i].GuesserView?
                        ==> r.roster[i].player.id != r.whosTurn.value
  {
    var k :| 0 <= k < |r.roster| && PlayerIds(r.roster)[k] == r.whosTurn.value;
    assert Broadcast(r)[k].DrawerView?;
  }
}

=== FILE: legacy_room.dfy ===
/** The earlier `Room` kept in app/connection_manager.py.

    It differs from app/room.py: a lone player already gets a game, the
    drawer is drawn at random, a guess must match the clue exactly (case
    included), a departing drawer does not pass the turn on, and the drawer
    is sent the player's own `player_data` rather than the clue. The source
    stores the integer 0 in `whos_turn` when nobody draws; client ids are
    strings there, so 0 never equals one, and the model writes `None`. */
module LegacyRoom {
  import opened Wrappers
  import opened ServerErrors
  import opened Text
  import opened Scoring
  import Seqs
  import Choice

  type PlayerId = string

  datatype Player = Player(id: PlayerId, playerData: Option<string>)

  datatype Connection = Connection(ws: nat, player: Player)

  /** The fixed clue list of app/connection_manager.py. */
  const CLUES: seq<string> := ["pies", "kot", "Ala"]

  /** The seeds of the two `random.choice` calls of `start_game`. */
  datatype Env = Env(drawerSeed: nat, clueSeed: nat)

  datatype Room = Room(
    id: string,
    roster: seq<Connection>,
    isGameOn: bool,
    gameData: seq<byte>,
    whosTurn: Option<PlayerId>,
    clue: Option<string>)

  datatype GuessResult = Win(clue: string) | IsClose | Miss

  datatype View =
    | DrawerView(isGameOn: bool, whosTurn: Option<PlayerId>, gameData: string,
                 sequenceToGuess: Option<string>)
    | GuesserView(isGameOn: bool, whosTurn: Option<PlayerId>, gameData: string)

  datatype Stats = Stats(isGameOn: bool, whosTurn: Option<PlayerId>, connectedPlayers: nat,
                         clue: Option<string>)

  function PlayerIds(roster: seq<Connection>): (ids: seq<PlayerId>)
    ensures |ids| == |roster|
    ensures forall i :: 0 <= i < |roster| ==> ids[i] == roster[i].player.id
  {
    seq(|roster|, i requires 0 <= i < |roster| => roster[i].player.id)
  }

  /** The invariant of this variant: a game is on exactly when there is a
      drawer and a clue from `CLUES`, and then someone is connected. The
      drawer need not be connected: a departing drawer keeps the turn. */
  predicate Consistent(r: Room) {
    && (r.isGameOn <==> r.clue.Some?)
    && (r.isGameOn <==> r.whosTurn.Some?)
    && (r.clue.Some? ==> r.clue.value in CLUES)
    && (r.isGameOn ==> r.roster != [])
  }

  function NewRoom(id: string): (r: Room)
    ensures Consistent(r)
    ensures r.id == id && r.roster == [] && !r.isGameOn && r.gameData == []
  {
    Room(id, [], false, [], None, None)
  }

  /** `start_game` on a non-empty roster: a random drawer among the
      connected players, a random clue, an empty drawing. */
  function Start(r: Room, env: Env): (r': Room)
    requires r.roster != []
    ensures r'.isGameOn && r'.gameData == []
    ensures r'.whosTurn.Some? && r'.whosTurn.value in PlayerIds(r.roster)
    ensures r'.clue.Some? && r'.clue.value in CLUES
    ensures r'.id == r.id && r'.roster == r.roster
    ensures Consistent(r')
  {
    r.(gameData := [],
       isGameOn := true,
       whosTurn := Some(Choice.Pick(PlayerIds(r.roster), env.drawerSeed)),
       clue := Some(Choice.Pick(CLUES, env.clueSeed)))
  }

  /** `start_game` as written: it empties the drawing and sets `is_game_on`
      before `random.choice` raises IndexError on an empty roster, and the
      room object keeps those two changes. */
  function StartGameAsWritten(r: Room, env: Env): (out: (Room, Option<ServerError>))
    ensures r.roster == [] ==> out.1 == Some(EmptyChoice)
                               && out.0 == r.(gameData := [], isGameOn := true)
    ensures r.roster != [] ==> out.1.None? && out.0 == Start(r, env)
  {
    if r.roster == [] then (r.(gameData := [], isGameOn := true), Some(EmptyChoice))
    else (Start(r, env), None)
  }

  /** `start_game` with the empty-roster error raised before any change, as
      app/room.py does it; the rest of the model uses this definition. */
  function StartGame(r: Room, env: Env): (res: Result<Room, ServerError>)
    ensures res.Failure? <==> r.roster == []
    ensures res.Failure? ==> res.error == EmptyChoice
    ensures res.Success? ==> res.value == Start(r, env)
  {
    if r.roster == [] then Failure(EmptyChoice) else Success(Start(r, env))
  }

  /** `end_game`: no game, `whos_turn` back to 0, no clue; roster and drawing untouched. */
  function EndGame(r: Room): (r': Room)
    ensures !r'.isGameOn && r'.whosTurn.None? && r'.clue.None?
    ensures r'.id == r.id && r'.roster == r.roster && r'.gameData == r.gameData
    ensures Consistent(r')
  {
    r.(isGameOn := false, whosTurn := None, clue := None)
  }

  /** `append_connection`: the newcomer goes to the end of the roster, and a
      game starts whenever none is on (the roster is never empty after a join). */
  function AppendConnection(r: Room, c: Connection, env: Env): (r': Room)
    ensures r'.roster == r.roster + [c] && r'.isGameOn
    ensures !r.isGameOn ==> r' == Start(r.(roster := r.roster + [c]), env)
    ensures r.isGameOn ==> r' == r.(roster := r.roster + [c])
  {
    var joined := r.(roster := r.roster + [c]);
    if |joined.roster| > 0 && !joined.isGameOn then Start(joined, env) else joined
  }

  /** `remove_connection`: the connection leaves (ValueError if it is not
      there) and the game ends once at most one player is left; nothing else
      changes, even when the drawer is the one who left. */
  function RemoveConnection(r: Room, c: Connection): (res: Result<Room, ServerError>)
    ensures res.Failure? <==> c !in r.roster
    ensures res.Failure? ==> res.error == NoSuchConnection
    ensures res.Success? && |r.roster| - 1 <= 1 ==> res.value == EndGame(r.(roster := Seqs.RemoveFirst(r.roster, c)))
    ensures res.Success? && |r.roster| - 1 > 1 ==> res.value == r.(roster := Seqs.RemoveFirst(r.roster, c))
  {
    if c !in r.roster then Failure(NoSuchConnection)
    else
      var left := r.(roster := Seqs.RemoveFirst(r.roster, c));
      if |left.roster| <= 1 then Success(EndGame(left)) else Success(left)
  }

  /** `handle_players_guess` of this variant: GameNotStarted while no game is
      on; a guess equal to the clue, case included, wins and restarts; any
      other guess leaves the room as it is and is close above the threshold. */
  function HandlePlayersGuess(r: Room, message: string, ratio: (string, string) -> Ratio,
                              scoreThresh: int, env: Env): (res: Result<(Room, GuessResult), ServerError>)
    ensures !r.isGameOn ==> res == Failure(GameNotStarted)
    ensures r.isGameOn && r.clue == Some(message) && r.roster != []
            ==> res == Success((Start(r, env), Win(message)))
    ensures r.isGameOn && r.clue != Some(message) ==> res.Success? && res.value.0 == r
    ensures r.isGameOn && r.clue != Some(message)
            ==> (res.value.1 == IsClose <==> Score(ratio, message, r.clue) > scoreThresh)
  {
    if !r.isGameOn then Failure(GameNotStarted)
    else if r.clue == Some(message) then
      match StartGame(r, env)
      case Success(r') => Success((r', Win(message)))
      case Failure(e) => Failure(e)
    else if Score(ratio, message, r.clue) > scoreThresh then Success((r, IsClose))
    else Success((r, Miss))
  }

  /** The `player_data` of the first connection whose player has the id. */
  function PlayerDataOf(roster: seq<Connection>, id: PlayerId): (res: Result<Option<string>, ServerError>)
    ensures res.Failure? <==> id !in PlayerIds(roster)
    ensures res.Success? ==> exists i :: 0 <= i < |roster| && roster[i].player.id == id
                                         && roster[i].player.playerData == res.value
                                         && forall j :: 0 <= j < i ==> roster[j].player.id != id
  {
    if id !in PlayerIds(roster) then Failure(NoSuchConnection)
    else Success(roster[Seqs.IndexOf(PlayerIds(roster), id)].player.playerData)
  }

  /** `get_game_state` of this variant: the drawer's view carries the
      drawer's `player_data` (looking the drawer up raises StopIteration when
      no connection has the id, which the calling coroutine turns into
      RuntimeError), everybody else's view carries no clue field. */
  function GetGameState(r: Room, viewer: PlayerId): (res: Result<View, ServerError>)
    ensures res.Failure? <==> r.whosTurn == Some(viewer) && viewer !in PlayerIds(r.roster)
    ensures res.Success? ==> (res.value.DrawerView? <==> r.whosTurn == Some(viewer))
    ensures res.Success? ==> res.value.isGameOn == r.isGameOn && res.value.whosTurn == r.whosTurn
                             && res.value.gameData == Latin1Decode(r.gameData)
    ensures res.Success? && res.value.DrawerView? ==>
              exists i :: 0 <= i < |r.roster| && r.roster[i].player.id == viewer
                          && r.roster[i].player.playerData == res.value.sequenceToGuess
                          && forall j :: 0 <= j < i ==> r.roster[j].player.id != viewer
    ensures res.Success? && res.value.DrawerView? ==> PlayerDataOf(r.roster, viewer) == Success(res.value.sequenceToGuess)
  {
    if r.whosTurn == Some(viewer) then
      match PlayerDataOf(r.roster, viewer)
      case Success(data) => Success(DrawerView(r.isGameOn, r.whosTurn, Latin1Decode(r.gameData), data))
      case Failure(e) => Failure(e)
    else Success(GuesserView(r.isGameOn, r.whosTurn, Latin1Decode(r.gameData)))
  }

  /** `get_stats`. */
  function GetStats(r: Room): (st: Stats)
    ensures st.isGameOn == r.isGameOn && st.whosTurn == r.whosTurn && st.clue == r.clue
    ensures st.connectedPlayers == |r.roster|
  {
    Stats(r.isGameOn, r.whosTurn, |r.roster|, r.clue)
  }
}

=== FILE: legacy_room_properties.dfy ===
/** Properties of the earlier room variant of app/connection_manager.py,
    including the defect of its `start_game` on an empty room. */
module LegacyRoomProperties {
  import opened Wrappers
  import opened ServerErrors
  import opened Scoring
  import opened LegacyRoom
  import Seqs

  /** A join keeps the room consistent and always leaves a game running. */
  lemma JoinPreservesConsistent(r: Room, c: Connection, env: Env)
    requires Consistent(r)
    ensures Consistent(AppendConnection(r, c, env)) && AppendConnection(r, c, env).isGameOn
  {
  }

  /** A departure keeps the room consistent; the game ends at one player. */
  lemma LeavePreservesConsistent(r: Room, c: Connection)
    requires Consistent(r)
    ensures var res := RemoveConnection(r, c);
            res.Success? ==> Consistent(res.value) && (res.value.isGameOn ==> |res.value.roster| >= 2)
  {
  }

  /** A guess keeps the room consistent and never changes who is connected. */
  lemma GuessPreservesConsistent(r: Room, message: string, ratio: (string, string) -> Ratio,
                                 scoreThresh: int, env: Env)
    requires Consistent(r)
    ensures var res := HandlePlayersGuess(r, message, ratio, scoreThresh, env);
            res.Success? ==> Consistent(res.value.0) && res.value.0.roster == r.roster
                             && res.value.0.id == r.id
  {
  }

  /** A guess on a running consistent game never fails, and wins only on the exact clue. */
  lemma GuessOnRunningGame(r: Room, message: string, ratio: (string, string) -> Ratio,
                           scoreThresh: int, env: Env)
    requires Consistent(r) && r.isGameOn
    ensures var res := HandlePlayersGuess(r, message, ratio, scoreThresh, env);
            res.Success? && (res.value.1.Win? <==> message == r.clue.value)
  {
  }

  /** Matching is case-sensitive here: "ala" does not win against the clue "Ala". */
  lemma GuessIsCaseSensitive(r: Room, ratio: (string, string) -> Ratio, env: Env)
    requires Consistent(r) && r.clue == Some("Ala")
    ensures var res := HandlePlayersGuess(r, "ala", ratio, DEFAULT_SCORE_THRESH, env);
            res.Success? && !res.value.1.Win? && res.value.0 == r
  {
  }

  /** Unlike app/room.py, a departing drawer keeps the turn: with three
      players and the first one drawing, the first one's departure leaves a
      running game whose drawer is no longer connected. */
  lemma DepartedDrawerKeepsTurn(a: Connection, b: Connection, c: Connection)
    requires a.player.id != b.player.id && a.player.id != c.player.id && a != b && a != c
    ensures var r := Room("2", [a, b, c], true, [], Some(a.player.id), Some("kot"));
            var res := RemoveConnection(r, a);
            && Consistent(r)
            && res.Success? && res.value.isGameOn && res.value.roster == [b, c]
            && res.value.whosTurn == Some(a.player.id)
            && a.player.id !in PlayerIds(res.value.roster)
  {
    var r := Room("2", [a, b, c], true, [], Some(a.player.id), Some("kot"));
    assert Seqs.IndexOf(r.roster, a) == 0;
  }

  /** Finding, as written: `start_game` on an empty room raises after it has
      already set `is_game_on`, leaving a running game with neither drawer nor
      clue. Joins made while the stranded game is still on never start one,
      and guesses miss; the game ends only by hand or when a departure leaves
      at most one player, which runs `end_game`. */
  lemma StartGameAsWrittenStrandsRoom(id: string, c: Connection, message: string,
                                      ratio: (string, string) -> Ratio, env: Env)
    ensures var (r, err) := StartGameAsWritten(NewRoom(id), env);
            && err == Some(EmptyChoice)
            && r.isGameOn && r.whosTurn.None? && r.clue.None?
            && !Consistent(r)
    ensures var r := StartGameAsWritten(NewRoom(id), env).0;
            var joined := AppendConnection(r, c, env);
            && joined.roster == [c] && joined.whosTurn.None? && joined.clue.None?
            && HandlePlayersGuess(joined, message, ratio, DEFAULT_SCORE_THRESH, env) == Success((joined, Miss))
    ensures var r := StartGameAsWritten(NewRoom(id), env).0;
            var left := RemoveConnection(AppendConnection(r, c, env), c);
            left.Success? && !left.value.isGameOn && Consistent(left.value)
  {
    var joined := AppendConnection(StartGameAsWritten(NewRoom(id), env).0, c, env);
    assert Seqs.IndexOf(joined.roster, c) == 0;
  }

  /** The corrected `start_game` raises before changing anything and keeps
      every consistent room consistent. */
  lemma StartGamePreservesConsistent(r: Room, env: Env)
    requires Consistent(r)
    ensures StartGame(r, env).Failure? ==> r.roster == [] && !r.isGameOn
    ensures StartGame(r, env).Success? ==> Consistent(StartGame(r, env).value)
  {
  }

  /** Players created by `connect` carry no `player_data`, so the drawer's
      view of this variant never carries the clue, or any text at all. */
  lemma DrawerViewCarriesNoClue(r: Room, viewer: PlayerId)
    requires forall i :: 0 <= i < |r.roster| ==> r.roster[i].player.playerData.None?
    ensures var res := GetGameState(r, viewer);
            res.Success? && res.value.DrawerView? ==> res.value.sequenceToGuess.None?
  {
  }
}

=== FILE: registry.dfy ===
/** The room registry `ConnectionManager` of app/connection_manager.py: an
    ordered list of rooms with unique ids, each with unique player ids,
    through which connections, drawings, guesses and administrative
    commands are routed. Sockets are opaque handles; accepting them and
    sending on them are not part of this model. */
module Registry {
  import opened Wrappers
  import opened ServerErrors
  import opened Text
  import opened Scoring
  import Seqs
  import L = LegacyRoom

  /** The rooms, and the drawing `handle_ws_message` stores on the manager
      itself (the attribute does not exist before the first drawing). */
  datatype Manager = Manager(rooms: seq<L.Room>, buffer: Option<seq<byte>>)

  /** A websocket frame as a dictionary that may lack its 'bytes' key. */
  datatype WsMessage = WsMessage(bytes: Option<seq<byte>>)

  datatype PlayerGuess = PlayerGuess(roomId: string, playerId: L.PlayerId, message: string)

  datatype OverallStats = OverallStats(roomsCount: nat, roomsIds: seq<string>)

  function RoomIds(rooms: seq<L.Room>): (ids: seq<string>)
    ensures |ids| == |rooms|
    ensures forall i :: 0 <= i < |rooms| ==> ids[i] == rooms[i].id
  {
    seq(|rooms|, i requires 0 <= i < |rooms| => rooms[i].id)
  }

  predicate UniqueRoomIds(rooms: seq<L.Room>) {
    forall i, j :: 0 <= i < j < |rooms| ==> rooms[i].id != rooms[j].id
  }

  predicate UniquePlayerIds(roster: seq<L.Connection>) {
    forall i, j :: 0 <= i < j < |roster| ==> roster[i].player.id != roster[j].player.id
  }

  /** The registry invariant: room ids are unique, player ids are unique
      within each room, and every room is consistent. */
  predicate Valid(m: Manager) {
    && UniqueRoomIds(m.rooms)
    && (forall i :: 0 <= i < |m.rooms| ==> UniquePlayerIds(m.rooms[i].roster))
    && (forall i :: 0 <= i < |m.rooms| ==> L.Consistent(m.rooms[i]))
  }

  /** `ConnectionManager.__init__`: one room, with id "2". */
  function Init(): (m: Manager)
    ensures Valid(m) && RoomIds(m.rooms) == ["2"] && m.buffer.None?
  {
    Manager([L.NewRoom("2")], None)
  }

  /** The index of the first room with the id. */
  function FindRoom(rooms: seq<L.Room>, id: string): (i: nat)
    requires id in RoomIds(rooms)
    ensures i < |rooms| && rooms[i].id == id
    ensures forall j :: 0 <= j < i ==> rooms[j].id != id
  {
    Seqs.IndexOf(RoomIds(rooms), id)
  }

  /** `get_room`: the first room with the id, or NoRoomWithThisId. */
  function GetRoom(m: Manager, id: string): (res: Result<L.Room, ServerError>)
    ensures res.Failure? <==> forall i :: 0 <= i < |m.rooms| ==> m.rooms[i].id != id
    ensures res.Failure? ==> res.error == NoRoomWithThisId
    ensures res.Success? ==> res.value.id == id && res.value in m.rooms
  {
    if id in RoomIds(m.rooms) then Success(m.rooms[FindRoom(m.rooms, id)])
    else Failure(NoRoomWithThisId)
  }

  /** The registry with the room at index `i` replaced. */
  function SetRoom(m: Manager, i: nat, room: L.Room): (m': Manager)
    requires i < |m.rooms|
    ensures |m'.rooms| == |m.rooms| && m'.rooms[i] == room && m'.buffer == m.buffer
    ensures forall j :: 0 <= j < |m.rooms| && j != i ==> m'.rooms[j] == m.rooms[j]
  {
    m.(rooms := m.rooms[i := room])
  }

  /** `create_new_room`: a new empty room at the end of the list, or
      RoomIdAlreadyInUse with the list unchanged. */
  function CreateNewRoom(m: Manager, id: string): (res: Result<Manager, ServerError>)
    ensures res.Failure? <==> id in RoomIds(m.rooms)
    ensures res.Failure? ==> res.error == RoomIdAlreadyInUse
    ensures res.Success? ==> res.value.rooms == m.rooms + [L.NewRoom(id)] && res.value.buffer == m.buffer
  {
    if id !in RoomIds(m.rooms) then Success(m.(rooms := m.rooms + [L.NewRoom(id)]))
    else Failure(RoomIdAlreadyInUse)
  }

  /** `delete_room`: the first room with the id leaves the list, the others
      keep their order; NoRoomWithThisId when there is none. */
  function DeleteRoom(m: Manager, id: string): (res: Result<Manager, ServerError>)
    ensures res.Failure? <==> id !in RoomIds(m.rooms)
    ensures res.Failure? ==> res.error == NoRoomWithThisId
    ensures res.Success? ==> var i := FindRoom(m.rooms, id);
                             res.value.rooms == m.rooms[..i] + m.rooms[i + 1..]
                             && res.value.buffer == m.buffer
  {
    if id !in RoomIds(m.rooms) then Failure(NoRoomWithThisId)
    else
      var i := FindRoom(m.rooms, id);
      Success(m.(rooms := m.rooms[..i] + m.rooms[i + 1..]))
  }

  /** `validate_client_id`: NoRoomWithThisId, PlayerIdAlreadyInUse, or `None` when the client may join. */
  function ValidateClientId(m: Manager, roomId: string, clientId: L.PlayerId): (err: Option<ServerError>)
    ensures err == Some(NoRoomWithThisId) <==> roomId !in RoomIds(m.rooms)
    ensures err == Some(PlayerIdAlreadyInUse) <==>
              roomId in RoomIds(m.rooms) && clientId in L.PlayerIds(m.rooms[FindRoom(m.rooms, roomId)].roster)
    ensures err.None? || err == Some(NoRoomWithThisId) || err == Some(PlayerIdAlreadyInUse)
  {
    match GetRoom(m, roomId)
    case Failure(e) => Some(e)
    case Success(room) => if clientId in L.PlayerIds(room.roster) then Some(PlayerIdAlreadyInUse) else None
  }

  /** `connect` with the player built as `Player(id=client_id)`, as the
      constructor of app/player.py expects; the rest of the model uses this
      definition. After validation, a connection for a player with no
      `player_data` is appended to the room's roster; nothing changes when
      validation fails. */
  function Connect(m: Manager, ws: nat, roomId: string, clientId: L.PlayerId, env: L.Env)
    : (res: Result<Manager, ServerError>)
    ensures res.Failure? <==> ValidateClientId(m, roomId, clientId).Some?
    ensures res.Failure? ==> res.error == ValidateClientId(m, roomId, clientId).value
    ensures res.Success? ==>
              var i := FindRoom(m.rooms, roomId);
              var c := L.Connection(ws, L.Player(clientId, None));
              res.value == SetRoom(m, i, L.AppendConnection(m.rooms[i], c, env))
  {
    match ValidateClientId(m, roomId, clientId)
    case Some(e) => Failure(e)
    case None =>
      var i := FindRoom(m.rooms, roomId);
      Success(SetRoom(m, i, L.AppendConnection(m.rooms[i], L.Connection(ws, L.Player(clientId, None)), env)))
  }

  /** `connect` as written: it builds `Player(player_id=client_id)`, but
      the `Player` constructor of app/player.py takes `id`, so every connect
      that passes validation raises TypeError after the socket is accepted
      and before the connection is appended. */
  function ConnectAsWritten(m: Manager, ws: nat, roomId: string, clientId: L.PlayerId)
    : (res: Result<Manager, ServerError>)
    ensures res.Failure?
    ensures ValidateClientId(m, roomId, clientId).Some? ==> res.error == ValidateClientId(m, roomId, clientId).value
    ensures ValidateClientId(m, roomId, clientId).None? ==> res.error == UnexpectedKeyword
  {
    match ValidateClientId(m, roomId, clientId)
    case Some(e) => Failure(e)
    case None => Failure(UnexpectedKeyword)
  }

  /** What a client is sent right after it connects: its view of the room
      and the room's drawing; the room lookup and the view can each raise. */
  function ConnectSnapshot(m: Manager, roomId: string, clientId: L.PlayerId)
    : (res: Result<(L.View, seq<byte>), ServerError>)
    ensures res.Failure? <==> GetRoom(m, roomId).Failure? || L.GetGameState(GetRoom(m, roomId).value, clientId).Failure?
    ensures res.Failure? && GetRoom(m, roomId).Failure? ==> res.error == NoRoomWithThisId
    ensures res.Success? ==> res.value.0 == L.GetGameState(GetRoom(m, roomId).value, clientId).value
                             && res.value.1 == GetRoom(m, roomId).value.gameData
  {
    match GetRoom(m, roomId)
    case Failure(e) => Failure(e)
    case Success(room) =>
      match L.GetGameState(room, clientId)
      case Failure(e) => Failure(e)
      case Success(view) => Success((view, room.gameData))
  }

  /** `get_active_connection`: the index of the first room holding a
      connection on the socket, and the position of the first such
      connection in that room's roster; `None` when no room holds one. */
  function FindConnection(rooms: seq<L.Room>, ws: nat): (found: Option<(nat, nat)>)
    ensures found.None? <==> forall i, c :: 0 <= i < |rooms| && c in rooms[i].roster ==> c.ws != ws
    ensures found.Some? ==> var (i, k) := found.value;
                            && i < |rooms| && k < |rooms[i].roster| && rooms[i].roster[k].ws == ws
                            && (forall j, c :: 0 <= j < i && c in rooms[j].roster ==> c.ws != ws)
                            && (forall j :: 0 <= j < k ==> rooms[i].roster[j].ws != ws)
  {
    if rooms == [] then None
    else
      var k := FirstOn(rooms[0].roster, ws);
      if k < |rooms[0].roster| then Some((0, k))
      else
        assert forall c :: c in rooms[0].roster ==> c.ws != ws;
        match FindConnection(rooms[1..], ws)
        case None =>
          assert forall i :: 1 <= i < |rooms| ==> rooms[i] == rooms[1..][i - 1];
          None
        case Some((i, k')) =>
          assert forall j :: 1 <= j < i + 1 ==> rooms[j] == rooms[1..][j - 1];
          Some((i + 1, k'))
  }

  /** The position of the first connection of a roster on the socket, or
      the roster's length when none is on it. */
  function FirstOn(roster: seq<L.Connection>, ws: nat): (k: nat)
    ensures k <= |roster|
    ensures k < |roster| ==> roster[k].ws == ws
    ensures forall j :: 0 <= j < k ==> roster[j].ws != ws
  {
    if roster == [] || roster[0].ws == ws then 0
    else 1 + FirstOn(roster[1..], ws)
  }

  /** `disconnect`: the socket's connection leaves the first room that holds
      it; with no such connection the unpacking of `None` raises. */
  function Disconnect(m: Manager, ws: nat): (res: Result<Manager, ServerError>)
    ensures res.Failure? <==> forall i, c :: 0 <= i < |m.rooms| && c in m.rooms[i].roster ==> c.ws != ws
    ensures res.Failure? ==> res.error == NoSuchConnection
    ensures res.Success? ==> var (i, k) := FindConnection(m.rooms, ws).value;
                             res.value == SetRoom(m, i, L.RemoveConnection(m.rooms[i], m.rooms[i].roster[k]).value)
  {
    match FindConnection(m.rooms, ws)
    case None => Failure(NoSuchConnection)
    case Some((i, k)) => Success(SetRoom(m, i, L.RemoveConnection(m.rooms[i], m.rooms[i].roster[k]).value))
  }

  /** `handle_ws_message` as written: a drawing from the room's drawer
      replaces the buffer held by the manager, not the room's `game_data`;
      a message without 'bytes' is ignored. */
  function HandleWsMessageAsWritten(m: Manager, msg: WsMessage, roomId: string, clientId: L.PlayerId)
    : (res: Result<Manager, ServerError>)
    ensures res.Failure? <==> roomId !in RoomIds(m.rooms)
    ensures res.Success? ==> res.value.rooms == m.rooms
    ensures res.Success? && GetRoom(m, roomId).value.whosTurn == Some(clientId) && msg.bytes.Some?
            ==> res.value.buffer == msg.bytes
    ensures res.Success? && (GetRoom(m, roomId).value.whosTurn != Some(clientId) || msg.bytes.None?)
            ==> res.value == m
  {
    match GetRoom(m, roomId)
    case Failure(e) => Failure(e)
    case Success(room) =>
      if room.whosTurn == Some(clientId) && msg.bytes.Some? then Success(m.(buffer := msg.bytes))
      else Success(m)
  }

  /** `handle_ws_message` with the drawing stored on the room it belongs to;
      the rest of the model uses this definition. Only the room's drawer can
      change the drawing, which is replaced, never appended to. */
  function HandleWsMessage(m: Manager, msg: WsMessage, roomId: string, clientId: L.PlayerId)
    : (res: Result<Manager, ServerError>)
    ensures res.Failure? <==> roomId !in RoomIds(m.rooms)
    ensures res.Failure? ==> res.error == NoRoomWithThisId
    ensures res.Success? && GetRoom(m, roomId).value.whosTurn == Some(clientId) && msg.bytes.Some?
            ==> res.value == SetRoom(m, FindRoom(m.rooms, roomId),
                                     GetRoom(m, roomId).value.(gameData := msg.bytes.value))
    ensures res.Success? && (GetRoom(m, roomId).value.whosTurn != Some(clientId) || msg.bytes.None?)
            ==> res.value == m
  {
    match GetRoom(m, roomId)
    case Failure(e) => Failure(e)
    case Success(room) =>
      if room.whosTurn == Some(clientId) && msg.bytes.Some? then
        Success(SetRoom(m, FindRoom(m.rooms, roomId), room.(gameData := msg.bytes.value)))
      else Success(m)
  }

  /** `handle_players_guess`, routed to the guess's room with the default threshold. */
  function HandlePlayersGuess(m: Manager, g: PlayerGuess, ratio: (string, string) -> Ratio, env: L.Env)
    : (res: Result<(Manager, L.GuessResult), ServerError>)
    ensures g.roomId !in RoomIds(m.rooms) ==> res == Failure(NoRoomWithThisId)
    ensures g.roomId in RoomIds(m.rooms) ==>
              var i := FindRoom(m.rooms, g.roomId);
              var out := L.HandlePlayersGuess(m.rooms[i], g.message, ratio, DEFAULT_SCORE_THRESH, env);
              (res.Failure? <==> out.Failure?)
              && (res.Success? ==> res.value == (SetRoom(m, i, out.value.0), out.value.1))
  {
    if g.roomId !in RoomIds(m.rooms) then Failure(NoRoomWithThisId)
    else
      var i := FindRoom(m.rooms, g.roomId);
      match L.HandlePlayersGuess(m.rooms[i], g.message, ratio, DEFAULT_SCORE_THRESH, env)
      case Failure(e) => Failure(e)
      case Success((room, result)) => Success((SetRoom(m, i, room), result))
  }

  /** `start_game` of the administrative surface as written: the room
      object is changed in place before `random.choice` raises on an empty
      roster, so the registry keeps the half-started room next to the error.
      Off that case it does what the corrected `StartGame` does. */
  function StartGameAsWritten(m: Manager, roomId: string, env: L.Env): (out: (Manager, Option<ServerError>))
    ensures roomId !in RoomIds(m.rooms) ==> out == (m, Some(NoRoomWithThisId))
    ensures roomId in RoomIds(m.rooms) ==>
              var i := FindRoom(m.rooms, roomId);
              && |out.0.rooms| == |m.rooms|
              && (forall j :: 0 <= j < |m.rooms| && j != i ==> out.0.rooms[j] == m.rooms[j])
              && (m.rooms[i].roster == [] ==>
                    out.1 == Some(EmptyChoice)
                    && out.0.rooms[i].isGameOn && out.0.rooms[i].gameData == []
                    && out.0.rooms[i].clue == m.rooms[i].clue && out.0.rooms[i].whosTurn == m.rooms[i].whosTurn
                    && (L.Consistent(m.rooms[i]) ==> !L.Consistent(out.0.rooms[i])))
              && (m.rooms[i].roster != [] ==> out.1.None? && out.0 == StartGame(m, roomId, env).value)
  {
    if roomId !in RoomIds(m.rooms) then (m, Some(NoRoomWithThisId))
    else
      var i := FindRoom(m.rooms, roomId);
      var (room, err) := L.StartGameAsWritten(m.rooms[i], env);
      (SetRoom(m, i, room), err)
  }

  /** `start_game` and `restart_game` of the administrative surface, with
      the empty-roster error raised before the room changes; the rest of
      the model uses this definition. */
  function StartGame(m: Manager, roomId: string, env: L.Env): (res: Result<Manager, ServerError>)
    ensures roomId !in RoomIds(m.rooms) ==> res == Failure(NoRoomWithThisId)
    ensures roomId in RoomIds(m.rooms) ==>
              var i := FindRoom(m.rooms, roomId);
              (res.Failure? <==> m.rooms[i].roster == [])
              && (res.Success? ==> res.value == SetRoom(m, i, L.Start(m.rooms[i], env)))
  {
    if roomId !in RoomIds(m.rooms) then Failure(NoRoomWithThisId)
    else
      var i := FindRoom(m.rooms, roomId);
      match L.StartGame(m.rooms[i], env)
      case Failure(e) => Failure(e)
      case Success(room) => Success(SetRoom(m, i, room))
  }

  /** `end_game` of the administrative surface. */
  function EndGame(m: Manager, roomId: string): (res: Result<Manager, ServerError>)
    ensures res.Failure? <==> roomId !in RoomIds(m.rooms)
    ensures res.Success? ==> var i := FindRoom(m.rooms, roomId);
                             res.value == SetRoom(m, i, L.EndGame(m.rooms[i]))
  {
    if roomId !in RoomIds(m.rooms) then Failure(NoRoomWithThisId)
    else
      var i := FindRoom(m.rooms, roomId);
      Success(SetRoom(m, i, L.EndGame(m.rooms[i])))
  }

  /** `end_all_games`: every room ends its game; ids and rosters stay. */
  function EndAllGames(m: Manager): (m': Manager)
    ensures |m'.rooms| == |m.rooms| && m'.buffer == m.buffer
    ensures forall i :: 0 <= i < |m.rooms| ==> m'.rooms[i] == L.EndGame(m.rooms[i])
  {
    m.(rooms := seq(|m.rooms|, i requires 0 <= i < |m.rooms| => L.EndGame(m.rooms[i])))
  }

  /** `get_room_stats`: the stats of the first room with the id. */
  function GetRoomStats(m: Manager, roomId: string): (res: Result<L.Stats, ServerError>)
    ensures res.Failure? <==> roomId !in RoomIds(m.rooms)
    ensures res.Failure? ==> res.error == NoRoomWithThisId
    ensures res.Success? ==> res.value == L.GetStats(m.rooms[FindRoom(m.rooms, roomId)])
    ensures res.Success? ==> var room := m.rooms[FindRoom(m.rooms, roomId)];
                             && res.value.connectedPlayers == |room.roster|
                             && res.value.isGameOn == room.isGameOn
                             && res.value.whosTurn == room.whosTurn
                             && res.value.clue == room.clue
  {
    match GetRoom(m, roomId)
    case Failure(e) => Failure(e)
    case Success(room) => Success(L.GetStats(room))
  }

  /** `get_overall_stats`: the number of rooms and their ids in order. */
  function GetOverallStats(m: Manager): (st: OverallStats)
    ensures st.roomsCount == |st.roomsIds| == |m.rooms|
    ensures forall i :: 0 <= i < |m.rooms| ==> st.roomsIds[i] == m.rooms[i].id
  {
    OverallStats(|m.rooms|, RoomIds(m.rooms))
  }
}

=== FILE: registry_properties.dfy ===
/** Properties of the room registry of app/connection_manager.py: the
    uniqueness of room ids and player ids survives every command, and the
    defect of its drawing relay. */
module RegistryProperties {
  import opened Wrappers
  import opened ServerErrors
  import opened Text
  import opened Scoring
  import opened Registry
  import L = LegacyRoom
  import Seqs

  /** Replacing a room by one with the same id, unique player ids and a
      consistent state keeps the registry valid and its ids in place. */
  lemma SetRoomPreservesValid(m: Manager, i: nat, room: L.Room)
    requires Valid(m) && i < |m.rooms|
    requires room.id == m.rooms[i].id && UniquePlayerIds(room.roster) && L.Consistent(room)
    ensures Valid(SetRoom(m, i, room))
    ensures RoomIds(SetRoom(m, i, room).rooms) == RoomIds(m.rooms)
  {
  }

  /** Dropping one element keeps the remaining ids unique. */
  lemma RemoveFirstKeepsUnique(roster: seq<L.Connection>, c: L.Connection)
    requires UniquePlayerIds(roster) && c in roster
    ensures UniquePlayerIds(Seqs.RemoveFirst(roster, c))
  {
    var k := Seqs.IndexOf(roster, c);
    var rest := Seqs.RemoveFirst(roster, c);
    forall i, j | 0 <= i < j < |rest|
      ensures rest[i].player.id != rest[j].player.id
    {
      var i' := if i < k then i else i + 1;
      var j' := if j < k then j else j + 1;
      assert rest[i] == roster[i'] && rest[j] == roster[j'];
    }
  }

  /** The commands the registry serves. */
  datatype Command =
    | CreateRoom(roomId: string)
    | DeleteRoomCmd(roomId: string)
    | ConnectCmd(ws: nat, roomId: string, clientId: L.PlayerId)
    | DisconnectCmd(ws: nat)
    | Draw(msg: WsMessage, roomId: string, clientId: L.PlayerId)
    | GuessCmd(guess: PlayerGuess)
    | Start(roomId: string)
    | End(roomId: string)
    | EndAll

  /** The registry after a command, or the exception the command raises. */
  function Run(m: Manager, cmd: Command, ratio: (string, string) -> Ratio, env: L.Env)
    : Result<Manager, ServerError>
  {
    match cmd
    case CreateRoom(id) => CreateNewRoom(m, id)
    case DeleteRoomCmd(id) => DeleteRoom(m, id)
    case ConnectCmd(ws, id, client) => Connect(m, ws, id, client, env)
    case DisconnectCmd(ws) => Disconnect(m, ws)
    case Draw(msg, id, client) => HandleWsMessage(m, msg, id, client)
    case GuessCmd(g) =>
      var res := HandlePlayersGuess(m, g, ratio, env);
      if res.Success? then Success(res.value.0) else Failure(res.error)
    case Start(id) => StartGame(m, id, env)
    case End(id) => EndGame(m, id)
    case EndAll => Success(EndAllGames(m))
  }

  lemma CreatePreservesValid(m: Manager, id: string)
    requires Valid(m)
    ensures CreateNewRoom(m, id).Success? ==> Valid(CreateNewRoom(m, id).value)
  {
  }

  /** Deleting a room leaves no room with its id and every other room in place. */
  lemma DeletePreservesValid(m: Manager, id: string)
    requires Valid(m)
    ensures var res := DeleteRoom(m, id);
            res.Success? ==> Valid(res.value) && id !in RoomIds(res.value.rooms)
                             && |res.value.rooms| == |m.rooms| - 1
                             && forall room :: room in m.rooms && room.id != id ==> room in res.value.rooms
  {
    if id in RoomIds(m.rooms) {
      var i := FindRoom(m.rooms, id);
      var rest := m.rooms[..i] + m.rooms[i + 1..];
      Seqs.DropAt(m.rooms, i, rest);
      assert UniqueRoomIds(rest) by {
        forall a, b | 0 <= a < b < |rest|
          ensures rest[a].id != rest[b].id
        {
          assert rest[a] == m.rooms[if a < i then a else a + 1];
          assert rest[b] == m.rooms[if b < i then b else b + 1];
        }
      }
      assert id !in RoomIds(rest) by {
        forall j | 0 <= j < |rest|
          ensures rest[j].id != id
        {
          assert rest[j] == m.rooms[if j < i then j else j + 1];
        }
      }
      forall room | room in m.rooms && room.id != id
        ensures room in rest
      {
        var k :| 0 <= k < |m.rooms| && m.rooms[k] == room;
        if k < i { assert rest[k] == room; } else { assert rest[k - 1] == room; }
      }
    }
  }

  /** A connection is accepted only under a fresh player id, so ids stay unique in the room. */
  lemma ConnectPreservesValid(m: Manager, ws: nat, roomId: string, clientId: L.PlayerId, env: L.Env)
    requires Valid(m)
    ensures var res := Connect(m, ws, roomId, clientId, env);
            res.Success? ==> Valid(res.value)
  {
    if ValidateClientId(m, roomId, clientId).None? {
      var i := FindRoom(m.rooms, roomId);
      var c := L.Connection(ws, L.Player(clientId, None));
      var room := L.AppendConnection(m.rooms[i], c, env);
      assert room.roster == m.rooms[i].roster + [c];
      assert UniquePlayerIds(room.roster);
      SetRoomPreservesValid(m, i, room);
    }
  }

  lemma DisconnectPreservesValid(m: Manager, ws: nat)
    requires Valid(m)
    ensures var res := Disconnect(m, ws);
            res.Success? ==> Valid(res.value)
  {
    var found := FindConnection(m.rooms, ws);
    if found.Some? {
      var (i, k) := found.value;
      var c := m.rooms[i].roster[k];
      RemoveFirstKeepsUnique(m.rooms[i].roster, c);
      SetRoomPreservesValid(m, i, L.RemoveConnection(m.rooms[i], c).value);
    }
  }

  /** Room ids and player ids stay unique, and every room consistent,
      whatever command the registry serves. */
  lemma EveryCommandPreservesValid(m: Manager, cmd: Command, ratio: (string, string) -> Ratio, env: L.Env)
    requires Valid(m)
    ensures var res := Run(m, cmd, ratio, env);
            res.Success? ==> Valid(res.value)
  {
    match cmd
    case CreateRoom(id) => CreatePreservesValid(m, id);
    case DeleteRoomCmd(id) => DeletePreservesValid(m, id);
    case ConnectCmd(ws, id, client) => ConnectPreservesValid(m, ws, id, client, env);
    case DisconnectCmd(ws) => DisconnectPreservesValid(m, ws);
    case Draw(msg, id, client) =>
      if id in RoomIds(m.rooms) {
        var i := FindRoom(m.rooms, id);
        if msg.bytes.Some? {
          SetRoomPreservesValid(m, i, m.rooms[i].(gameData := msg.bytes.value));
        }
      }
    case GuessCmd(g) =>
      if g.roomId in RoomIds(m.rooms) {
        var i := FindRoom(m.rooms, g.roomId);
        var out := L.HandlePlayersGuess(m.rooms[i], g.message, ratio, DEFAULT_SCORE_THRESH, env);
        if out.Success? {
          SetRoomPreservesValid(m, i, out.value.0);
        }
      }
    case Start(id) =>
      if id in RoomIds(m.rooms) {
        var i := FindRoom(m.rooms, id);
        if m.rooms[i].roster != [] {
          SetRoomPreservesValid(m, i, L.Start(m.rooms[i], env));
        }
      }
    case End(id) =>
      if id in RoomIds(m.rooms) {
        var i := FindRoom(m.rooms, id);
        SetRoomPreservesValid(m, i, L.EndGame(m.rooms[i]));
      }
    case EndAll =>
  }

  /** Each error names its cause: on a valid registry only a creation
      reports RoomIdAlreadyInUse, only a disconnect NoSuchConnection, only a
      start EmptyChoice and only a guess GameNotStarted; a connection under
      a taken player id is refused with PlayerIdAlreadyInUse. */
  lemma FailingCommandsNameTheirError(m: Manager, cmd: Command, ratio: (string, string) -> Ratio, env: L.Env)
    requires Valid(m)
    ensures var res := Run(m, cmd, ratio, env);
            res.Failure? ==> (res.error == RoomIdAlreadyInUse <==> cmd.CreateRoom?)
    ensures var res := Run(m, cmd, ratio, env);
            res.Failure? ==> (res.error == NoSuchConnection <==> cmd.DisconnectCmd?)
    ensures var res := Run(m, cmd, ratio, env);
            res.Failure? && res.error == EmptyChoice ==> cmd.Start?
    ensures var res := Run(m, cmd, ratio, env);
            res.Failure? && res.error == GameNotStarted ==> cmd.GuessCmd?
    ensures cmd.ConnectCmd? && cmd.roomId in RoomIds(m.rooms)
            && cmd.clientId in L.PlayerIds(GetRoom(m, cmd.roomId).value.roster)
            ==> Run(m, cmd, ratio, env) == Failure(PlayerIdAlreadyInUse)
  {
  }

  /** Finding, as written: starting the initial room before anyone joined
      leaves a registry that is no longer valid, because its room is on
      with no clue. With the corrected start the command fails and the
      registry is as it was. */
  lemma AsWrittenStartBreaksValid(env: L.Env)
    ensures Valid(Init())
    ensures var out := StartGameAsWritten(Init(), "2", env);
            out.1 == Some(EmptyChoice) && !Valid(out.0)
    ensures StartGame(Init(), "2", env) == Failure(EmptyChoice)
  {
    var out := StartGameAsWritten(Init(), "2", env);
    assert !L.Consistent(out.0.rooms[0]);
  }

  /** Finding, as written: no client ever joins a room. A connect either
      fails validation or raises TypeError when it builds the player, and in
      neither case does the registry change. */
  lemma AsWrittenConnectNeverJoins(m: Manager, ws: nat, roomId: string, clientId: L.PlayerId)
    ensures ConnectAsWritten(m, ws, roomId, clientId).Failure?
    ensures roomId in RoomIds(m.rooms) && clientId !in L.PlayerIds(GetRoom(m, roomId).value.roster)
            ==> ConnectAsWritten(m, ws, roomId, clientId) == Failure(UnexpectedKeyword)
  {
  }

  /** Corrected: a client whose id is free in an existing room joins it; its
      id is then in the room's roster and the registry stays valid. */
  lemma ConnectAdmitsNewcomer(m: Manager, ws: nat, roomId: string, clientId: L.PlayerId, env: L.Env)
    requires Valid(m) && roomId in RoomIds(m.rooms)
    requires clientId !in L.PlayerIds(GetRoom(m, roomId).value.roster)
    ensures var res := Connect(m, ws, roomId, clientId, env);
            && res.Success? && Valid(res.value)
            && GetRoom(res.value, roomId).Success?
            && clientId in L.PlayerIds(GetRoom(res.value, roomId).value.roster)
  {
    ConnectPreservesValid(m, ws, roomId, clientId, env);
    var i := FindRoom(m.rooms, roomId);
    var c := L.Connection(ws, L.Player(clientId, None));
    var joined := L.AppendConnection(m.rooms[i], c, env);
    var m' := SetRoom(m, i, joined);
    assert RoomIds(m'.rooms) == RoomIds(m.rooms);
    assert FindRoom(m'.rooms, roomId) == i;
    assert L.PlayerIds(joined.roster)[|joined.roster| - 1] == clientId;
  }

  /** Finding, as written: the drawer's drawing is stored on the manager, so
      the room keeps an empty `game_data` and a player who connects after
      the drawing was sent is given an empty drawing. */
  lemma AsWrittenNewcomerMissesDrawing(env: L.Env)
    ensures var m1 := Connect(Init(), 1, "2", "a", env);
            && m1.Success?
            && GetRoom(m1.value, "2").value.whosTurn == Some("a")
            && var m2 := HandleWsMessageAsWritten(m1.value, WsMessage(Some([7])), "2", "a");
               && m2.Success? && m2.value.buffer == Some([7])
               && var m3 := Connect(m2.value, 2, "2", "b", env);
                  && m3.Success?
                  && ConnectSnapshot(m3.value, "2", "b").Success?
                  && ConnectSnapshot(m3.value, "2", "b").value.1 == []
  {
    var m1 := Connect(Init(), 1, "2", "a", env).value;
    assert L.PlayerIds(m1.rooms[0].roster) == ["a"];
    var m3 := Connect(m1, 2, "2", "b", env).value;
    assert L.PlayerIds(m3.rooms[0].roster) == ["a", "b"];
  }

  /** Corrected: once the drawer sends a drawing, a player who connects next
      is sent exactly that drawing. */
  lemma NewcomerReceivesLatestDrawing(m: Manager, roomId: string, drawer: L.PlayerId, bytes: seq<byte>,
                                      ws: nat, newcomer: L.PlayerId, env: L.Env)
    requires Valid(m) && roomId in RoomIds(m.rooms)
    requires GetRoom(m, roomId).value.whosTurn == Some(drawer)
    requires newcomer !in L.PlayerIds(GetRoom(m, roomId).value.roster)
    ensures var m1 := HandleWsMessage(m, WsMessage(Some(bytes)), roomId, drawer);
            && m1.Success?
            && var m2 := Connect(m1.value, ws, roomId, newcomer, env);
               && m2.Success?
               && ConnectSnapshot(m2.value, roomId, newcomer).Success?
               && ConnectSnapshot(m2.value, roomId, newcomer).value.1 == bytes
  {
    var i := FindRoom(m.rooms, roomId);
    var drawn := m.rooms[i].(gameData := bytes);
    SetRoomPreservesValid(m, i, drawn);
    var m1 := SetRoom(m, i, drawn);
    assert FindRoom(m1.rooms, roomId) == i;
    var c := L.Connection(ws, L.Player(newcomer, None));
    var joined := L.AppendConnection(drawn, c, env);
    assert joined == drawn.(roster := drawn.roster + [c]);
    var m2 := SetRoom(m1, i, joined);
    assert RoomIds(m2.rooms) == RoomIds(m1.rooms);
    assert FindRoom(m2.rooms, roomId) == i;
    assert L.PlayerIds(joined.roster)[|joined.roster| - 1] == newcomer;
  }

  /** A drawing replaces the previous one: sending the same drawing twice leaves what sending it once does. */
  lemma DrawingReplacesNotAppends(m: Manager, bytes: seq<byte>, roomId: string, drawer: L.PlayerId)
    requires Valid(m) && roomId in RoomIds(m.rooms)
    requires GetRoom(m, roomId).value.whosTurn == Some(drawer)
    ensures var once := HandleWsMessage(m, WsMessage(Some(bytes)), roomId, drawer);
            && once.Success?
            && HandleWsMessage(once.value, WsMessage(Some(bytes)), roomId, drawer) == once
            && GetRoom(once.value, roomId).value.gameData == bytes
  {
    var i := FindRoom(m.rooms, roomId);
    var drawn := m.rooms[i].(gameData := bytes);
    var m1 := SetRoom(m, i, drawn);
    assert RoomIds(m1.rooms) == RoomIds(m.rooms);
    assert FindRoom(m1.rooms, roomId) == i;
    assert GetRoom(m1, roomId).value == drawn;
    assert m1.rooms[i := drawn.(gameData := bytes)] == m1.rooms;
  }
}

=== FILE: scoring.dfy ===
/** The fuzzy match both room variants use to call a guess close. The
    similarity measure of fuzzywuzzy is an input: any function from two
    strings to a score between 0 and 100. */
module Scoring {
  import opened Wrappers

  /** A similarity score of `fuzz.ratio`. */
  type Ratio = r: int | 0 <= r <= 100

  /** `handle_players_guess` calls a guess close when its score exceeds this. */
  const DEFAULT_SCORE_THRESH: int := 60

  /** `fuzz.ratio(message, clue)`, which fuzzywuzzy scores 0 when the clue is `None`. */
  function Score(ratio: (string, string) -> Ratio, message: string, clue: Option<string>): (s: Ratio)
    ensures clue.None? ==> s == 0
    ensures clue.Some? ==> s == ratio(message, clue.value)
  {
    if clue.Some? then ratio(message, clue.value) else 0
  }
}

=== FILE: seqs.dfy ===
/** Python list operations on sequences: `list.index`, `list.remove`. */
module Seqs {

  /** `xs.index(x)`: the position of the first occurrence of `x`. */
  function IndexOf<T(==)>(xs: seq<T>, x: T): (i: nat)
    requires x in xs
    ensures i < |xs| && xs[i] == x
    ensures forall j :: 0 <= j < i ==> xs[j] != x
  {
    if xs[0] == x then 0 else 1 + IndexOf(xs[1..], x)
  }

  /** `xs.remove(x)`: drops the first occurrence of `x`, keeping the order of the rest. */
  function RemoveFirst<T(==)>(xs: seq<T>, x: T): (r: seq<T>)
    requires x in xs
    ensures |r| == |xs| - 1
    ensures r == xs[..IndexOf(xs, x)] + xs[IndexOf(xs, x) + 1..]
  {
    if xs[0] == x then xs[1..]
    else
      assert xs[1..][..IndexOf(xs[1..], x)] == xs[1..IndexOf(xs, x)];
      [xs[0]] + RemoveFirst(xs[1..], x)
  }

  /** Removing one occurrence of `x` leaves every other value where it was. */
  lemma RemoveFirstKeepsOthers<T>(xs: seq<T>, x: T, y: T)
    requires x in xs && y != x
    ensures y in RemoveFirst(xs, x) <==> y in xs
  {
    var i := IndexOf(xs, x);
    assert xs == xs[..i] + [x] + xs[i + 1..];
  }

  /** Removing one occurrence of `x` drops exactly one copy from the multiset of values. */
  lemma RemoveFirstMultiset<T>(xs: seq<T>, x: T)
    requires x in xs
    ensures multiset(RemoveFirst(xs, x)) == multiset(xs) - multiset{x}
  {
    var i := IndexOf(xs, x);
    assert xs == xs[..i] + [x] + xs[i + 1..];
  }

  /** Dropping the element at `i` shifts every later element down by one. */
  lemma DropAt<T>(xs: seq<T>, i: nat, rest: seq<T>)
    requires i < |xs| && rest == xs[..i] + xs[i + 1..]
    ensures |rest| == |xs| - 1
    ensures forall j :: 0 <= j < i ==> rest[j] == xs[j]
    ensures forall j :: i <= j < |rest| ==> rest[j] == xs[j + 1]
  {
  }
}

=== FILE: single_room.dfy ===
/** The earliest, single-room `ConnectionManager` of ConnectionManager.py.

    One game for everyone connected: client ids are integers, `whos_turn`
    is the integer 0 until a game starts, every join from the second one on
    draws a new drawer at random, and a drawing is accepted from any message
    whose "id" field is the sender's own id. */
module SingleRoom {
  import opened Wrappers
  import opened ServerErrors
  import opened Text
  import Seqs
  import Choice

  type ClientId = int

  datatype Player = Player(id: ClientId, playerData: Option<string>)

  datatype Connection = Connection(ws: nat, player: Player)

  datatype State = State(roster: seq<Connection>, isGameOn: bool, gameData: seq<byte>, whosTurn: ClientId)

  /** A received frame as a dictionary that may lack its "id" or its "bytes" key. */
  datatype Message = Message(id: Option<ClientId>, bytes: Option<seq<byte>>)

  datatype View =
    | DrawerView(isGameOn: bool, whosTurn: ClientId, gameData: seq<byte>, sequenceToGuess: Option<string>)
    | GuesserView(isGameOn: bool, whosTurn: ClientId, gameData: seq<byte>)

  function PlayerIds(roster: seq<Connection>): (ids: seq<ClientId>)
    ensures |ids| == |roster|
    ensures forall i :: 0 <= i < |roster| ==> ids[i] == roster[i].player.id
  {
    seq(|roster|, i requires 0 <= i < |roster| => roster[i].player.id)
  }

  /** `ConnectionManager.__init__`. */
  function Init(): (s: State)
    ensures s.roster == [] && !s.isGameOn && s.gameData == [] && s.whosTurn == 0
  {
    State([], false, [], 0)
  }

  /** `start_game` on a non-empty roster: a game on, with a drawer drawn from the connected ids. */
  function Start(s: State, seed: nat): (s': State)
    requires s.roster != []
    ensures s'.isGameOn && s'.whosTurn in PlayerIds(s.roster)
    ensures s'.roster == s.roster && s'.gameData == s.gameData
  {
    s.(isGameOn := true, whosTurn := Choice.Pick(PlayerIds(s.roster), seed))
  }

  /** `start_game` on any roster: on an empty one `is_game_on` is already set
      when `random.choice` raises IndexError, and the manager keeps it. */
  function StartGame(s: State, seed: nat): (out: (State, Option<ServerError>))
    ensures out.0.isGameOn && out.0.roster == s.roster && out.0.gameData == s.gameData
    ensures out.1.Some? <==> s.roster == []
    ensures out.1.Some? ==> out.1.value == EmptyChoice && out.0.whosTurn == s.whosTurn
    ensures out.1.None? ==> out.0.whosTurn in PlayerIds(s.roster)
  {
    if s.roster == [] then (s.(isGameOn := true), Some(EmptyChoice)) else (Start(s, seed), None)
  }

  /** `append_connection`: the newcomer goes to the end of the roster, and
      from two connections on every join starts the game again. */
  function AppendConnection(s: State, c: Connection, seed: nat): (s': State)
    ensures s'.roster == s.roster + [c] && s'.gameData == s.gameData
    ensures |s.roster| + 1 > 1 ==> s'.isGameOn && s'.whosTurn in PlayerIds(s'.roster)
    ensures |s.roster| + 1 <= 1 ==> s'.isGameOn == s.isGameOn && s'.whosTurn == s.whosTurn
  {
    var joined := s.(roster := s.roster + [c]);
    if |joined.roster| > 1 then Start(joined, seed) else joined
  }

  /** The `player_data` of the first connection whose player has the id. */
  function PlayerDataOf(roster: seq<Connection>, id: ClientId): (res: Result<Option<string>, ServerError>)
    ensures res.Failure? <==> id !in PlayerIds(roster)
    ensures res.Success? ==> exists i :: 0 <= i < |roster| && roster[i].player.id == id
                                         && roster[i].player.playerData == res.value
                                         && forall j :: 0 <= j < i ==> roster[j].player.id != id
  {
    if id !in PlayerIds(roster) then Failure(NoSuchConnection)
    else Success(roster[Seqs.IndexOf(PlayerIds(roster), id)].player.playerData)
  }

  /** `get_game_state`: the viewer whose id equals `whos_turn` gets the
      drawer's view with its `player_data` (StopIteration when no connection
      has that id, RuntimeError once it leaves the calling coroutine);
      everybody else gets no `sequence_to_guess` field. */
  function GetGameState(s: State, clientId: ClientId): (res: Result<View, ServerError>)
    ensures res.Failure? <==> clientId == s.whosTurn && clientId !in PlayerIds(s.roster)
    ensures res.Success? ==> (res.value.DrawerView? <==> clientId == s.whosTurn)
    ensures res.Success? ==> res.value.isGameOn == s.isGameOn && res.value.whosTurn == s.whosTurn
                             && res.value.gameData == s.gameData
    ensures res.Success? && res.value.DrawerView? ==> PlayerDataOf(s.roster, clientId) == Success(res.value.sequenceToGuess)
  {
    if clientId == s.whosTurn then
      match PlayerDataOf(s.roster, clientId)
      case Success(data) => Success(DrawerView(s.isGameOn, s.whosTurn, s.gameData, data))
      case Failure(e) => Failure(e)
    else Success(GuesserView(s.isGameOn, s.whosTurn, s.gameData))
  }

  /** `connect`: the client joins with no `player_data` and is sent its view. */
  function Connect(s: State, ws: nat, clientId: ClientId, seed: nat): (out: (State, View))
    ensures out.0 == AppendConnection(s, Connection(ws, Player(clientId, None)), seed)
    ensures GetGameState(out.0, clientId) == Success(out.1)
  {
    var s' := AppendConnection(s, Connection(ws, Player(clientId, None)), seed);
    assert PlayerIds(s'.roster)[|s'.roster| - 1] == clientId;
    (s', GetGameState(s', clientId).value)
  }

  /** The first connection of a roster that sits on the socket. */
  function ConnectionOn(roster: seq<Connection>, ws: nat): (found: Option<Connection>)
    ensures found.None? <==> forall c :: c in roster ==> c.ws != ws
    ensures found.Some? ==> exists i :: 0 <= i < |roster| && roster[i] == found.value && found.value.ws == ws
                                        && forall j :: 0 <= j < i ==> roster[j].ws != ws
  {
    if roster == [] then None
    else if roster[0].ws == ws then Some(roster[0])
    else
      var rest := ConnectionOn(roster[1..], ws);
      assert forall i :: 1 <= i < |roster| ==> roster[i] == roster[1..][i - 1];
      rest
  }

  /** `disconnect`: the first connection on the socket leaves (StopIteration
      when there is none, RuntimeError in the endpoint coroutine); the game, its drawer and the drawing stay as they are. */
  function Disconnect(s: State, ws: nat): (res: Result<State, ServerError>)
    ensures res.Failure? <==> forall c :: c in s.roster ==> c.ws != ws
    ensures res.Failure? ==> res.error == NoSuchConnection
    ensures res.Success? ==> |res.value.roster| == |s.roster| - 1
                             && res.value.isGameOn == s.isGameOn && res.value.whosTurn == s.whosTurn
                             && res.value.gameData == s.gameData
    ensures res.Success? ==> exists c :: c in s.roster && c.ws == ws
                                         && multiset(res.value.roster) == multiset(s.roster) - multiset{c}
    ensures res.Success? ==> exists k :: 0 <= k < |s.roster| && s.roster[k].ws == ws
                                         && (forall j :: 0 <= j < k ==> s.roster[j].ws != ws)
                                         && res.value.roster == s.roster[..k] + s.roster[k + 1..]
  {
    match ConnectionOn(s.roster, ws)
    case None => Failure(NoSuchConnection)
    case Some(c) =>
      Seqs.RemoveFirstMultiset(s.roster, c);
      Success(s.(roster := Seqs.RemoveFirst(s.roster, c)))
  }

  /** `handle_message`: a message whose "id" is the sender's id and that
      carries "bytes" replaces the drawing; a missing key (KeyError) or
      another id leaves the state as it is. */
  function HandleMessage(s: State, msg: Message, clientId: ClientId): (s': State)
    ensures msg.id == Some(clientId) && msg.bytes.Some? ==> s' == s.(gameData := msg.bytes.value)
    ensures msg.id != Some(clientId) || msg.bytes.None? ==> s' == s
  {
    if msg.id.Some? && msg.id.value == clientId && msg.bytes.Some? then s.(gameData := msg.bytes.value)
    else s
  }

  /** A lone client, with any id but 0, is sent the initial state: no game,
      `whos_turn` 0 and an empty drawing. */
  lemma LoneConnectionSeesInitialState(ws: nat, clientId: ClientId, seed: nat)
    requires clientId != 0
    ensures Connect(Init(), ws, clientId, seed).1 == GuesserView(false, 0, [])
  {
  }

  /** The sentinel 0 is also a client id: a lone client 0 is treated as the drawer of a game that is off. */
  lemma ClientZeroLooksLikeDrawer(ws: nat, seed: nat)
    ensures Connect(Init(), ws, 0, seed).1 == DrawerView(false, 0, [], None)
  {
  }

  /** Two clients 1 and 2 in turn: the second one sees a running game drawn
      by one of them and an empty drawing. */
  lemma SecondConnectionStartsGame(ws1: nat, ws2: nat, seed1: nat, seed2: nat)
    ensures var s1 := Connect(Init(), ws1, 1, seed1).0;
            var (s2, view) := Connect(s1, ws2, 2, seed2);
            && view.isGameOn && view.whosTurn in {1, 2} && view.gameData == []
            && s2.roster == [Connection(ws1, Player(1, None)), Connection(ws2, Player(2, None))]
  {
    var s1 := Connect(Init(), ws1, 1, seed1).0;
    var s2 := Connect(s1, ws2, 2, seed2).0;
    assert PlayerIds(s2.roster) == [1, 2];
  }

  /** A drawing replaces the previous one: sending it twice is sending it once. */
  lemma HandleMessageIdempotent(s: State, msg: Message, clientId: ClientId)
    ensures HandleMessage(HandleMessage(s, msg, clientId), msg, clientId) == HandleMessage(s, msg, clientId)
  {
  }
}

=== FILE: text.dfy ===
/** Byte buffers and the two string operations the game applies to text:
    the ISO-8859-1 decoding of the drawing buffer and `str.lower()`
    as far as it matters for comparing a guess with an ASCII clue. */
module Text {

  newtype byte = b: int | 0 <= b < 256

  /** ISO-8859-1 maps every byte to the code point with the same value. */
  function Latin1Decode(bytes: seq<byte>): (s: string)
    ensures |s| == |bytes|
    ensures forall i :: 0 <= i < |bytes| ==> s[i] as int == bytes[i] as int
  {
    seq(|bytes|, i requires 0 <= i < |bytes| => (bytes[i] as int) as char)
  }

  /** Inverse of `Latin1Decode` on strings whose code points are all below 256. */
  function Latin1Encode(s: string): (bytes: seq<byte>)
    requires forall i :: 0 <= i < |s| ==> (s[i] as int) < 256
    ensures |bytes| == |s|
  {
    seq(|s|, i requires 0 <= i < |s| => (s[i] as int) as byte)
  }

  /** The decoding loses no byte: encoding the decoded text gives the buffer back. */
  lemma Latin1RoundTrip(bytes: seq<byte>)
    ensures Latin1Encode(Latin1Decode(bytes)) == bytes
  {
  }

  /** Two buffers decode to the same text only if they are equal. */
  lemma Latin1Injective(a: seq<byte>, b: seq<byte>)
    requires Latin1Decode(a) == Latin1Decode(b)
    ensures a == b
  {
    Latin1RoundTrip(a);
    Latin1RoundTrip(b);
  }

  /** U+212A KELVIN SIGN, which Python lower-cases to the ASCII letter 'k'. */
  const KELVIN: char := '\U{212A}'

  /** `c.lower()` for ASCII letters and the Kelvin sign; every other
      character is left as it is. Apart from U+0130, whose lower case is 'i'
      followed by a combining dot, these are the only characters whose
      lower case in Python holds an ASCII character, so the map agrees with
      `str.lower()` on which characters end up ASCII and what they become. */
  function LowerChar(c: char): (d: char)
    ensures 'A' <= c <= 'Z' ==> d as int == c as int + 32
    ensures c == KELVIN ==> d == 'k'
    ensures !('A' <= c <= 'Z') && c != KELVIN ==> d == c
    ensures d as int < 128 <==> c as int < 128 || c == KELVIN
  {
    if 'A' <= c <= 'Z' then (c as int + 32) as char
    else if c == KELVIN then 'k'
    else c
  }

  /** `s.lower()`, character by character. */
  function Lower(s: string): (t: string)
    ensures |t| == |s|
    ensures forall i :: 0 <= i < |s| ==> t[i] == LowerChar(s[i])
  {
    seq(|s|, i requires 0 <= i < |s| => LowerChar(s[i]))
  }

  /** A lower-cased string has no upper-case ASCII letter left. */
  lemma LowerHasNoUpper(s: string)
    ensures forall i :: 0 <= i < |s| ==> !('A' <= Lower(s)[i] <= 'Z')
  {
  }

  /** Lower-casing twice is lower-casing once. */
  lemma LowerIdempotent(s: string)
    ensures Lower(Lower(s)) == Lower(s)
  {
  }
}

/** `random.choice`: the random source is an explicit seed, and the pick is
    `xs[seed % |xs|]`, so that every element is the pick of some seed. */
module Choice {

  function Pick<T>(xs: seq<T>, seed: nat): (x: T)
    requires |xs| > 0
    ensures x in xs
  {
    xs[seed % |xs|]
  }

  /** Every element of the list can be chosen: the model rules out no outcome of `random.choice`. */
  lemma PickReachesAll<T>(xs: seq<T>, i: nat)
    requires i < |xs|
    ensures Pick(xs, i) == xs[i]
  {
  }

  /** The seeds cover the list: for every element there is a seed that picks it. */
  lemma PickSurjective<T>(xs: seq<T>, x: T)
    requires x in xs
    ensures exists seed: nat :: Pick(xs, seed) == x
  {
    var i :| 0 <= i < |xs| && xs[i] == x;
    PickReachesAll(xs, i);
  }
}

=== FILE: wrappers.dfy ===
/** Failure-compatible result types shared by every module of the model. */
module Wrappers {

  /** An optional value; `None` plays the part of Python's `None`. */
  datatype Option<+T> = None | Some(value: T)

  /** The outcome of an operation that may raise: `Failure` carries the exception. */
  datatype Result<+R, +E> = Success(value: R) | Failure(error: E) {
    predicate IsFailure() {
      Failure?
    }

    function PropagateFailure<U>(): Result<U, E>
      requires Failure?
    {
      Failure(error)
    }

    function Extract(): R
      requires Success?
    {
      value
    }
  }
}

/** The exceptions the game server raises, including the built-in Python
    exceptions that escape from list operations on an unexpected state. */
module ServerErrors {

  datatype ServerError =
    | GameNotStarted          // a guess reached a room whose game is off
    | PlayerIdAlreadyInUse    // a client id is already bound in the room
    | NoRoomWithThisId        // no room carries the requested id
    | RoomIdAlreadyInUse      // a room with this id already exists
    | EmptyChoice             // IndexError: a pick from an empty list
    | NoSuchConnection        // the connection is not there: ValueError from `list.remove`, StopIteration from
                              // `next` (a RuntimeError once it leaves a coroutine), or TypeError from unpacking
                              // the `None` that `get_active_connection` returns
    | UnexpectedKeyword       // TypeError: a constructor called with a keyword it does not take
}
